=== FILE: README.md ===
# Particle network and physics sandbox — a Dafny model

This project models the simulation core of an interactive single-page demo
(`main.js`). The page has two animated canvases, and the model covers one
frame of each, plus the small numeric helpers they share.

* **Particle network** (`initParticles`, module `Network`). One call of
  `draw` does four things:
  * it tops the particle list up to the target count or trims it down;
  * it pushes every particle within squared distance 8000 of the pointer
    away from the pointer;
  * it holds each particle's speed between half and twice the speed
    setting;
  * it moves the particle and wraps it around the canvas edges.
* **Physics sandbox** (`initPhysics`, module `Sandbox`). One call of
  `simulate` walks the bodies in order. In its turn a body:
  * gains gravity and moves;
  * is put back against any wall, floor or ceiling it crossed, and sent
    back inward at `bounce` times its speed (only the floor also damps
    the sideways speed by 0.98 and the spin by 0.97);
  * is then tested against every other body. An overlapping pair is pushed
    apart along the line between the centres until the two just touch. If
    the pair is closing in, the bodies trade the impulse `relV * bounce`.
* **Helpers** (module `Numeric`): `clamp`, `lerp`, and the Euclidean
  `gcd` with the `lcm` derived from it.

Module `Geometry` holds the plane-vector vocabulary: squared length, the
square-root relation, and sign and scaling facts.

Modelling choices:

* JavaScript numbers are exact reals. Rounding, NaN and Infinity do not exist
  in the model.
* `Math.sqrt` and `Math.hypot` are not computed. A pair-level function takes
  the root as an argument (`dist`, `m`, `s`). A frame-level function takes a
  host function `sqrt`, and the lemmas about it require `IsSqrt(sqrt)`: the
  function is exact on every non-negative real.
* Randomness is an input. The particles that `makeParticle` would create
  arrive as the sequence `spawns`.
* The canvas size, the pointer position and the slider values (count, speed,
  gravity, bounce) are parameters of a frame.
* Mutation of the live arrays is modelled as pure functions from the old
  sequence to the new one. Within a frame, body updates happen in the
  source's order, so each step sees the writes of the steps before it.

### Where the code differs from what one would expect

The model follows the code in each of these cases:

* **Collision is nested and interleaved.** A physics step usually integrates
  every body, then reflects every body, then resolves each unordered pair
  once. The code does all three for one body before going on to the next
  (main.js:800-837). So every pair is tested twice, once from each side, with
  the later body's own turn in between. That turn can make the pair overlap
  again, and then the second test pushes and kicks the pair a second time
  (`Sandbox.PairTestedTwice`). Only an immediate re-test with the roles
  swapped is guaranteed to change nothing (`Sandbox.ResolveRevisit`). A body can also
  end its turn outside the walls (`Sandbox.CollisionPushesPastWall`).
* **The speed governor measures the speed once.** Both tests use the same
  `spd2` (main.js:133-140). A slow particle is brought up to `spd` itself,
  not to the floor `0.5 * spd`. Fast particles go to exactly `2 * spd`.
* **A zero velocity is not guarded.** The evidently intended behaviour is to
  leave a particle at rest alone. The code divides by `spd2` anyway
  (main.js:137). The
  model makes that division impossible by precondition (`Network.Govern`
  requires `m != 0 || spd == 0`) and does not claim the code is safe.
* **Wrap-around is a single step with strict tests.** A coordinate equal to
  the canvas extent is not wrapped (main.js:144-145).
* **The impulse does not reflect the approach speed.** The exchange turns
  the approach speed `relV` into `(1 - 2 * bounce) * relV`
  (`Sandbox.KickApproach`). The pair moves apart afterwards only for
  `bounce > 1/2`. At `bounce = 1/2` it stops closing. For
  `0 < bounce < 1/2` it keeps closing, more slowly, and at `bounce = 0` the
  approach speed is unchanged.

## Model

| member | source | states |
|---|---|---|
| Numeric.Clamp | main.js:11 | The result lies in [lo, hi] when lo <= hi; a value already in range is returned unchanged; values below or above are sent to the nearer bound; crossed bounds yield hi |
| Numeric.ClampIdempotent | main.js:11 | Clamping an already clamped value changes nothing |
| Numeric.ClampMonotone | main.js:11 | Clamping preserves the order of its inputs |
| Numeric.Lerp | main.js:12 | Interpolation returns the first end point at t = 0 and the second at t = 1 |
| Numeric.LerpBetween | main.js:12 | For t in [0, 1] the interpolant lies between the two end points |
| Numeric.LerpSymmetric | main.js:12 | Interpolating from b to a with 1 - t gives the same point as from a to b with t |
| Numeric.Gcd | main.js:269 | The gcd of two naturals that are not both zero is positive |
| Numeric.GcdDivides | main.js:269 | The gcd divides both of its arguments |
| Numeric.GcdGreatest | main.js:269 | Every common divisor of the arguments divides the gcd |
| Numeric.GcdBezout | main.js:269 | The gcd is an integer combination s*a + t*b of the arguments |
| Numeric.Lcm | main.js:270 | lcm(a, b) times gcd(a, b) is exactly a * b, so the source's division is exact |
| Numeric.ProductOverGcd | main.js:270 | The division (a * b) / gcd(a, b) leaves no remainder |
| Numeric.LcmFactors | main.js:270 | The division in lcm is exact: lcm(a, b) is a * (b / g) and (a / g) * b for g = gcd(a, b) |
| Numeric.LcmCommonMultiple | main.js:270 | Both arguments divide lcm(a, b) |
| Numeric.LcmLeast | main.js:270 | lcm(a, b) divides every common multiple of a and b |
| Network.Reconcile | main.js:118-119 | The two loops leave exactly `count` particles: the old ones in order, plus spawned ones when growing, or a prefix when shrinking |
| Network.ReconciledShape | main.js:118-119 | Reconciliation reaches the count, only appends when growing, only drops from the end when shrinking, leaves a right-sized population alone, and a second frame with the same count changes nothing |
| Network.Reconciled | main.js:118-119 | The new population has exactly `count` particles: the old ones, in order, up to the count, then spawned ones in order |
| Network.Repel | main.js:123-130 | The push never moves the particle or changes its radius or hue, and has no effect at squared distance 8000 or more |
| Network.RepelImpulse | main.js:125-129 | Within reach the velocity gains a positive multiple c of the offset from the pointer, with c * sqrt(d2) = 0.3 * (8000 - d2) / 8000 |
| Network.RepelPushesAway | main.js:123-130 | The velocity change is parallel to the offset, points away from the pointer, and has length 0.3 * (8000 - d2) / 8000 |
| Network.RepelUnderPointer | main.js:123-130 | A particle exactly under the pointer (d2 = 0, root of 1 used) is not pushed |
| Network.FarPointerIsInert | main.js:123-126 | A particle 90 or more from the pointer along either axis is out of reach and not pushed; so the pointer parked at (-9999, -9999) when it leaves the canvas pushes no particle on the canvas |
| Network.RootOrOne | main.js:128-129 | The repulsion's square root through the host square root, with a zero d2 replaced by 1 as JavaScript's `or` does: a positive root of d2, or of 1 when d2 is 0 |
| Network.Hypot | main.js:133 | `Math.hypot(vx, vy)` through the host square root: the non-negative root of vx² + vy² |
| Network.Pushed | main.js:124-130 | The pointer push, with the host square root, never moves the particle or changes its radius or hue, and leaves a particle at squared distance 8000 or more untouched |
| Network.PushedAway | main.js:124-130 | Within reach of the pointer and not exactly under it, the push is parallel to the particle's offset from the pointer and points away from the pointer |
| Network.Governed | main.js:133-140 | The particle-level governor, with the host hypot, never moves the particle or changes its radius or hue, and leaves a particle whose speed is within [0.5 spd, 2 spd] untouched |
| Network.Govern | main.js:133-140 | A velocity whose length is already within [0.5 spd, 2 spd] is left unchanged |
| Network.GovernScales | main.js:133-140 | The governor multiplies the velocity by a single factor: 2 spd / m when too fast, spd / m when too slow, 1 otherwise; positive when spd > 0 |
| Network.GovernKeepsDirection | main.js:133-140 | The governed velocity is parallel to the old one and points the same way |
| Network.GovernorBands | main.js:133-140 | A fast particle ends at exactly 2 spd, a slow one at exactly spd (not 0.5 spd), any other is untouched; the speed always ends in [0.5 spd, 2 spd] |
| Network.GovernDefined | main.js:133-137 | A moving particle, or a speed setting of 0, means the governor never divides by zero |
| Network.GovernAtRest | main.js:133-140 | With speed setting 0 a particle at rest stays at rest |
| Network.GovernSpeed | main.js:133-140 | For any velocity the governor can handle, the resulting speed lies in [0.5 spd, 2 spd] |
| Network.GovernedSpeed | main.js:133-140 | The particle-level governor, using the host hypot, keeps the speed in [0.5 spd, 2 spd] |
| Network.Wrap | main.js:144-145 | The coordinate moves by 0 or by one canvas extent; in-range values (including the extent itself) stay put; anything within one extent of the canvas lands back on it |
| Network.Move | main.js:142-145 | Each coordinate moves by its velocity component and then by at most one canvas extent; a coordinate whose new value is on the canvas moves by exactly its velocity; velocity, radius and hue are kept |
| Network.MoveStaysOnCanvas | main.js:142-145 | A particle on the canvas whose velocity components fit in the canvas stays on the canvas |
| Network.StepParticle | main.js:122-145 | One particle's update keeps its radius and hue |
| Network.StepStaysOnCanvas | main.js:122-145 | After a step the speed lies in [0.5 spd, 2 spd], and a particle on the canvas stays on it when 2 spd fits in the canvas |
| Network.Advance | main.js:122-145 | Every particle is updated once, independently and in place |
| Network.Frame | main.js:117-145 | A frame leaves exactly `count` particles |
| Network.FrameKeepsParticlesOnCanvas | main.js:117-145 | If every existing and spawned particle is on the canvas and 2 spd fits in it, every particle is on the canvas after the frame |
| Sandbox.Integrate | main.js:801-804 | Gravity changes only the vertical speed, by grav; the position moves by the new velocity and the angle by the spin |
| Sandbox.Reflect | main.js:806-812 | Reflection never changes the size, shape, colour or angle; the spin is kept or damped to 97%; on a canvas large enough for the body, it ends between the walls and between floor and ceiling |
| Sandbox.ReflectHits | main.js:806-812 | On a canvas large enough for the body, each boundary hit puts the body against that boundary (x = r, x = W - r, y = H - r, y = r) and sets the velocity across it to bounce times the old speed, signed towards the inside; a floor hit also scales the horizontal speed by 0.98, whichever wall set it |
| Sandbox.HitsPointInward | main.js:806-812 | The velocities a boundary hit produces point away from that boundary when bounce >= 0 |
| Sandbox.ReflectInside | main.js:806-812 | A body inside the bounds is left alone, and each coordinate stays put exactly when the body is within the bounds on that axis |
| Sandbox.ReflectPointsInward | main.js:806-812 | After touching the left wall vx >= 0, the right wall vx <= 0, the floor vy <= 0, the ceiling vy >= 0 |
| Sandbox.ReflectFloorDamping | main.js:806-812 | Only a floor contact damps the spin to 97% and the sideways speed to 98%; away from floor and walls both are kept |
| Sandbox.ReflectNoSpeedup | main.js:806-812 | With bounce in [0, 1], reflection never increases either speed component |
| Sandbox.ReflectLeftWallExample | main.js:808 | A radius-5 body at x = -1 moving left at 3 is put at x = 5 moving right at 2.4 (bounce 0.8) |
| Sandbox.Separate | main.js:823-824 | The positional correction changes only positions and keeps the sum of the two positions |
| Sandbox.Exchange | main.js:825-830 | The velocity exchange changes only velocities, keeps the momentum sum, and does nothing unless the bodies approach |
| Sandbox.Resolve | main.js:815-831 | A collision test keeps size, shape, colour, angle and spin, conserves the pair's position and momentum sums, and does nothing unless the bodies overlap and are more than 0.1 apart |
| Sandbox.ResolvePositions | main.js:819-824 | An overlapping pair is pushed apart by half the overlap each, along the normal (dx, dy) / dist from b to o |
| Sandbox.ResolveVelocities | main.js:825-830 | A pair not closing in keeps its velocities; a closing pair receives equal and opposite impulses relV * bounce along the normal |
| Sandbox.ResolveOffset | main.js:819-824 | The correction stretches the centre offset by minD / dist |
| Sandbox.ResolveTouches | main.js:815-824 | After the correction the centres are exactly minD apart |
| Sandbox.ResolveIdempotent | main.js:815-831 | Testing a resolved pair again in the same roles changes nothing |
| Sandbox.ResolveRevisit | main.js:815-831 | An immediate re-test of a resolved pair with the roles swapped changes nothing |
| Sandbox.KickApproach | main.js:825-830 | The impulse along a unit normal turns the approach speed relV into (1 - 2 bounce) relV |
| Sandbox.KickEnergy | main.js:825-830 | The impulse removes exactly 2 bounce (1 - bounce) relV² from the pair's doubled kinetic energy |
| Sandbox.ResolveNotClosing | main.js:825-826 | An overlapping pair that is not closing in keeps its velocities |
| Sandbox.ResolveKicks | main.js:815-831 | With the exact distance, a closing overlapping pair is kicked along a unit normal |
| Sandbox.ResolveNoEnergyGain | main.js:815-831 | With bounce in [0, 1] and the exact distance, a collision test never adds kinetic energy |
| Sandbox.ResolveOnLine | main.js:815-831 | Two overlapping bodies on a horizontal line are each pushed half the overlap apart along the line, and trade the impulse relV * bounce only when closing in; nothing else changes |
| Sandbox.ResolveSideBySide | main.js:815-831 | Two bodies on a horizontal line moving together are each pushed half the overlap apart and nothing else changes |
| Sandbox.ResolveExample | main.js:815-831 | Two radius-10 bodies at rest 15 apart are pushed to x = -2.5 and x = 17.5 |
| Sandbox.CollisionPushesPastWall | main.js:806-831 | A body the walls leave alone at x = 10 can be pushed to x = 2.5, outside the wall, by its collision test |
| Sandbox.Test | main.js:817-818 | A test with whatever distance the host reports keeps both bodies' kind, angle and spin and the pair's position and momentum sums |
| Sandbox.CollideFrom | main.js:815-831 | The collision tests of one body keep the number of bodies and every body's size, shape, colour, angle and spin |
| Sandbox.TotalSet | main.js:815-831 | Writing one body back changes a sum over all bodies by that body's difference |
| Sandbox.TestAmounts | main.js:815-831 | One test conserves the pair's position and momentum sums and, with bounce in [0, 1], does not add kinetic energy |
| Sandbox.CollideConserves | main.js:815-831 | All tests of one body's turn keep the total position and momentum of all bodies and never add kinetic energy |
| Sandbox.Turn | main.js:801-812 | A body's own turn advances its angle by its spin, keeps its kind, and keeps or damps the spin; on a canvas large enough for the body, a body that is still inside after gravity and motion is exactly the integrated body (free flight under any gravity) |
| Sandbox.SimulateFrom | main.js:800-832 | Bodies whose turn has passed keep their angle and spin; each later body's angle advances by its spin, possibly damped |
| Sandbox.Simulate | main.js:800-832 | One frame keeps the number and kind of bodies and advances every angle by its spin |
| Sandbox.TurnAtRest | main.js:801-812 | Without gravity, a body at rest and without spin inside the canvas stays put for its turn |
| Sandbox.FrameOfTwo | main.js:800-832 | For any two bodies, a frame is exactly body 0's turn, its test of body 1, body 1's turn, and body 1's test of body 0, in that order, each seeing the previous step's writes |
| Sandbox.PairTestedTwice | main.js:800-832 | Body 1's turn between the two tests of a pair can make it overlap again: with body 0 at rest at x = 50 and body 1 at x = 65 moving left at 3 (radius 10, bounce 0.3), the first test leaves them touching at 47.5 and 67.5, body 1 moves to 65.4, and the second test pushes and kicks them again to 46.45 and 66.45 |
| Sandbox.SimulateLoneBody | main.js:800-832 | A body alone on a large enough canvas only falls, moves and bounces, and ends the frame inside the bounds |

## Left out

- Drawing: canvas clearing, dots, connection lines, shapes, grid, shadows and colours (main.js:146-170, 834-836). None of it changes the simulation state.
- Pointer and touch mapping from client to canvas coordinates, and the event wiring (main.js:174-190, 842-853): the pointer position is a parameter.
- `makeParticle` and `addBody` draw random positions, velocities, radii and colours: spawned particles arrive as the `spawns` input, and the bodies are given.
- The other sections of the page (starfield, generative-art renderers other than `gcd`/`lcm`, audio, WebGL, the 3-D cube, navigation) are not part of this model.
- Floating point: rounding, NaN and Infinity. `lcm(0, 0)` is NaN in the source; `Numeric.Lcm` requires one argument to be positive.
- Network.Reconcile: the target count is a natural number. A negative slider value would leave the source's trim loop popping an empty array.
- Network.Govern: requires that it never divides by zero (`m != 0 || spd == 0`). The source divides by a zero speed and produces NaN velocities.
- Network.Frame: requires that every particle passes the governor's precondition; the lemmas assume an exact host square root.
- Sandbox.ResolveNoEnergyGain: rebound and energy facts are stated with a unit normal (through `Sandbox.ResolveKicks`) rather than in terms of `dist` alone, and they assume an exact `Math.hypot`.
- Sandbox.Simulate: the sums over all bodies are proved for one body's collision tests (`Sandbox.CollideConserves`), not for a whole frame, because gravity and the walls change them.
- Requesting the next animation frame and the resize handler are host scheduling.

=== FILE: geometry.dfy ===
/** Plane-vector vocabulary shared by both simulations.

    Coordinates are exact reals. The host's `Math.sqrt` / `Math.hypot` are not
    computed here: a caller supplies either the root itself (`IsRoot`) or a
    square-root function that is exact on every non-negative real (`IsSqrt`).

    Squares are kept behind `Square` and sign facts about products are proved
    through `MulPositive` / `MulNonnegative`, whose product is a named
    argument; the solver handles those far more reliably than bare `a * a`.
 */
module Geometry {

  function Square(a: real): real {
    a * a
  }

  /** Squared Euclidean length of the vector (dx, dy). */
  function Norm2(dx: real, dy: real): real {
    Square(dx) + Square(dy)
  }

  /** `m` is the non-negative square root of `v`. */
  predicate IsRoot(m: real, v: real) {
    0.0 <= m && Square(m) == v
  }

  /** `sqrt` is exact on every non-negative real. */
  ghost predicate IsSqrt(sqrt: real -> real) {
    forall v :: 0.0 <= v ==> IsRoot(sqrt(v), v)
  }

  // ---------------------------------------------------------------------------
  // Signs of products and squares

  lemma MulPositive(a: real, b: real, p: real)
    requires 0.0 < a && 0.0 < b && p == a * b
    ensures 0.0 < p
  {
  }

  lemma MulNonnegative(a: real, b: real, p: real)
    requires 0.0 <= a && 0.0 <= b && p == a * b
    ensures 0.0 <= p
  {
  }

  lemma MulZero(a: real, b: real)
    requires a == 0.0
    ensures a * b == 0.0
  {
  }

  lemma SquarePositive(a: real)
    requires a != 0.0
    ensures 0.0 < Square(a)
  {
    if a < 0.0 {
      MulPositive(-a, -a, Square(a));
    } else {
      MulPositive(a, a, Square(a));
    }
  }

  lemma SquareNonnegative(a: real)
    ensures 0.0 <= Square(a)
  {
    if a != 0.0 {
      SquarePositive(a);
    }
  }

  lemma Norm2Nonnegative(dx: real, dy: real)
    ensures 0.0 <= Norm2(dx, dy)
  {
    SquareNonnegative(dx);
    SquareNonnegative(dy);
  }

  /** Only the zero vector has squared length zero. */
  lemma Norm2Positive(dx: real, dy: real)
    requires dx != 0.0 || dy != 0.0
    ensures 0.0 < Norm2(dx, dy)
  {
    SquareNonnegative(dx);
    SquareNonnegative(dy);
    if dx != 0.0 {
      SquarePositive(dx);
    } else {
      SquarePositive(dy);
    }
  }

  /** Squares are strictly increasing on the non-negative reals. */
  lemma SquareStrictlyIncreasing(a: real, b: real)
    requires 0.0 <= a < b
    ensures Square(a) < Square(b)
  {
    MulPositive(b - a, b + a, Square(b) - Square(a));
  }

  lemma SquareIncreasing(a: real, b: real)
    requires 0.0 <= a <= b
    ensures Square(a) <= Square(b)
  {
    if a < b {
      SquareStrictlyIncreasing(a, b);
    }
  }

  // ---------------------------------------------------------------------------
  // Roots

  /** A non-negative real has at most one non-negative square root. */
  lemma RootUnique(a: real, b: real, v: real)
    requires IsRoot(a, v) && IsRoot(b, v)
    ensures a == b
  {
    if a < b {
      SquareStrictlyIncreasing(a, b);
    } else if b < a {
      SquareStrictlyIncreasing(b, a);
    }
  }

  /** The root of a positive number is positive. */
  lemma RootPositive(m: real, v: real)
    requires IsRoot(m, v) && 0.0 < v
    ensures 0.0 < m
  {
  }

  /** `sqrt` applied to a positive number gives a positive number. */
  lemma SqrtPositive(sqrt: real -> real, v: real)
    requires IsSqrt(sqrt) && 0.0 < v
    ensures 0.0 < sqrt(v)
  {
    assert IsRoot(sqrt(v), v);
    RootPositive(sqrt(v), v);
  }

  /** A real whose square is at most `c * c` lies in [-c, c]. */
  lemma SquareBound(a: real, c: real)
    requires 0.0 <= c && Square(a) <= Square(c)
    ensures -c <= a <= c
  {
    if c < a {
      SquareStrictlyIncreasing(c, a);
    } else if a < -c {
      SquareStrictlyIncreasing(c, -a);
    }
  }

  /** A vector whose squared length is at most `c * c` has both components in [-c, c]. */
  lemma ComponentBound(dx: real, dy: real, c: real)
    requires 0.0 <= c && Norm2(dx, dy) <= Square(c)
    ensures -c <= dx <= c && -c <= dy <= c
  {
    SquareNonnegative(dx);
    SquareNonnegative(dy);
    SquareBound(dx, c);
    SquareBound(dy, c);
  }

  // ---------------------------------------------------------------------------
  // Scaling

  /** Scaling a vector by `k` scales its squared length by `k * k`. */
  lemma ScaledNorm2(dx: real, dy: real, k: real)
    ensures Norm2(dx * k, dy * k) == Square(k) * Norm2(dx, dy)
  {
  }

  /** The vector (ix, iy) = c * (dx, dy) has length `|c * s|` when (dx, dy)
      has length `s`. */
  lemma ScaledRoot(dx: real, dy: real, s: real, c: real, ix: real, iy: real)
    requires Square(s) == Norm2(dx, dy) && ix == dx * c && iy == dy * c
    ensures Norm2(ix, iy) == Square(c * s)
  {
    ScaledNorm2(dx, dy, c);
    assert Square(c) * Square(s) == Square(c * s);
  }

  /** A positive multiple (ix, iy) = c * (dx, dy) of a non-zero vector keeps
      its direction: it is parallel to the vector and has a positive dot
      product with it. */
  lemma ScaledAlong(dx: real, dy: real, c: real, ix: real, iy: real)
    requires 0.0 < c && 0.0 < Norm2(dx, dy) && ix == dx * c && iy == dy * c
    ensures ix * dy == iy * dx
    ensures 0.0 < ix * dx + iy * dy
  {
    MulPositive(c, Norm2(dx, dy), ix * dx + iy * dy);
  }

  lemma DivPositive(a: real, b: real)
    requires 0.0 < a && 0.0 < b
    ensures 0.0 < a / b
  {
    MulPositive(a, 1.0 / b, a / b);
  }

  /** Rescaling a vector of length `m` by `c / m` gives a vector of length `|c|`. */
  lemma Rescaled(dx: real, dy: real, m: real, c: real)
    requires 0.0 < m && Square(m) == Norm2(dx, dy)
    ensures Norm2(dx * (c / m), dy * (c / m)) == Square(c)
  {
    var k := c / m;
    assert k * m == c;
    ScaledNorm2(dx, dy, k);
    assert Square(k) * Square(m) == Square(k * m);
  }
}

=== FILE: network.dfy ===
/** The particle network (`initParticles`, main.js:76-195): one frame of
    `draw` reconciles the population with the count slider, then moves each
    particle in turn — pointer repulsion, speed governor, integration and
    wrap-around. Drawing the dots and the connection lines is left out.

    A frame reads the slider values `count` (particle-count) and `spd`
    (particle-speed × 0.4), the canvas extent `W` × `H` and the pointer.
    Freshly spawned particles (`makeParticle`, random) are supplied by the
    caller in `spawns`, and `Math.sqrt` / `Math.hypot` by `sqrt`.
 */
module Network {
  import opened Geometry

  /** One dot: position, velocity, and its drawn radius and hue, which the
      update never changes. */
  datatype Particle = Particle(x: real, y: real, vx: real, vy: real, r: real, hue: int)

  /** The pointer in canvas coordinates. */
  datatype Pointer = Pointer(x: real, y: real)

  /** Squared distance within which the pointer pushes particles. */
  const Reach2: real := 8000.0
  /** Scale of the push at zero distance. */
  const Intensity: real := 1.5
  /** Fraction of the force added to the velocity per frame. */
  const Strength: real := 0.2

  predicate OnCanvas(p: Particle, W: real, H: real) {
    0.0 <= p.x <= W && 0.0 <= p.y <= H
  }

  // ---------------------------------------------------------------------------
  // Population (main.js:118-119)

  /** The population after one frame's top-up or trim towards `count`: the
      existing particles keep their places, and missing ones are taken from
      `spawns` in order. */
  function Reconciled(ps: seq<Particle>, count: nat, spawns: seq<Particle>): (r: seq<Particle>)
    requires count <= |ps| + |spawns|
    ensures |r| == count
    ensures forall i :: 0 <= i < count && i < |ps| ==> r[i] == ps[i]
    ensures forall i :: |ps| <= i < count ==> r[i] == spawns[i - |ps|]
  {
    if |ps| <= count then ps + spawns[..count - |ps|] else ps[..count]
  }

  /** The two `while` loops of `draw`: `push(makeParticle())` while too few,
      then `pop()` while too many. */
  method Reconcile(ps: seq<Particle>, count: nat, spawns: seq<Particle>) returns (r: seq<Particle>)
    requires count <= |ps| + |spawns|
    ensures |r| == count
    ensures r == Reconciled(ps, count, spawns)
  {
    r := ps;
    while |r| < count
      invariant |ps| <= |r|
      invariant |r| <= count || r == ps
      invariant r == ps + spawns[..|r| - |ps|]
      decreases count - |r|
    {
      r := r + [spawns[|r| - |ps|]];
    }
    while |r| > count
      invariant |ps| <= count ==> r == ps + spawns[..count - |ps|]
      invariant count < |ps| ==> count <= |r| <= |ps| && r == ps[..|r|]
      decreases |r|
    {
      r := r[..|r| - 1];
    }
  }

  /** Reconciliation reaches the target exactly, only appends when growing,
      only drops from the end when shrinking, and leaves a population of the
      right size alone — so running it again in the next frame changes nothing. */
  lemma ReconciledShape(ps: seq<Particle>, count: nat, spawns: seq<Particle>, later: seq<Particle>)
    requires count <= |ps| + |spawns|
    ensures |Reconciled(ps, count, spawns)| == count
    ensures |ps| <= count ==> ps <= Reconciled(ps, count, spawns)
    ensures count <= |ps| ==> Reconciled(ps, count, spawns) <= ps
    ensures |ps| == count ==> Reconciled(ps, count, spawns) == ps
    ensures Reconciled(Reconciled(ps, count, spawns), count, later) == Reconciled(ps, count, spawns)
  {
  }

  /** Squared length of a velocity pair. */
  function Speed2(v: (real, real)): real {
    Norm2(v.0, v.1)
  }

  // ---------------------------------------------------------------------------
  // Pointer repulsion (main.js:124-130)

  /** Squared distance from the pointer to the particle. */
  function Dist2(p: Particle, ptr: Pointer): real {
    Norm2(p.x - ptr.x, p.y - ptr.y)
  }

  /** `v || 1`: JavaScript treats a zero number as false and substitutes 1. */
  function OrOne(v: real): real {
    if v == 0.0 then 1.0 else v
  }

  /** The pointer's push on a particle whose offset from the pointer is
      (dx, dy), where `s` is the host's `Math.sqrt(d2 || 1)`. Within squared
      distance 8000 the velocity gains `dx / s * force * 0.2` (and likewise
      for y), with `force = (8000 - d2) / 8000 * 1.5`; otherwise nothing
      changes. */
  function Repel(p: Particle, dx: real, dy: real, s: real): (q: Particle)
    requires 0.0 < s
    ensures q.x == p.x && q.y == p.y && q.r == p.r && q.hue == p.hue
    ensures Reach2 <= Norm2(dx, dy) ==> q == p
  {
    var d2 := Norm2(dx, dy);
    if d2 < Reach2 then
      var force := (Reach2 - d2) / Reach2 * Intensity;
      p.(vx := p.vx + dx / s * force * Strength, vy := p.vy + dy / s * force * Strength)
    else
      p
  }

  /** The change of velocity from `p` to `q`. */
  function Push(p: Particle, q: Particle): (real, real) {
    (q.vx - p.vx, q.vy - p.vy)
  }

  /** Inside the pointer's reach the push adds `c * (dx, dy)` to the velocity
      for a positive `c`, and `c * s` is the push's length
      `0.3 * (8000 - d2) / 8000`. */
  lemma RepelImpulse(p: Particle, dx: real, dy: real, s: real) returns (c: real)
    requires 0.0 < s && Norm2(dx, dy) < Reach2
    ensures Repel(p, dx, dy, s).vx == p.vx + dx * c
    ensures Repel(p, dx, dy, s).vy == p.vy + dy * c
    ensures 0.0 < c
    ensures c * s == Intensity * Strength * (Reach2 - Norm2(dx, dy)) / Reach2
  {
    var d2 := Norm2(dx, dy);
    var force := (Reach2 - d2) / Reach2 * Intensity;
    c := force * Strength / s;
    DivScale(dx, s, force, Strength);
    DivScale(dy, s, force, Strength);
    DivPositive(force * Strength, s);
  }

  /** `d / s * f * g` is `d` times the single factor `f * g / s`. */
  lemma DivScale(d: real, s: real, f: real, g: real)
    requires s != 0.0
    ensures d / s * f * g == d * (f * g / s)
  {
  }

  /** A particle exactly under the pointer is not pushed. */
  lemma RepelUnderPointer(p: Particle, dx: real, dy: real, s: real)
    requires 0.0 < s && dx == 0.0 && dy == 0.0
    ensures Repel(p, dx, dy, s) == p
  {
    var c := RepelImpulse(p, dx, dy, s);
    MulZero(dx, c);
    MulZero(dy, c);
    var q := Repel(p, dx, dy, s);
    assert q.vx == p.vx && q.vy == p.vy;
    assert q == Particle(p.x, p.y, p.vx, p.vy, p.r, p.hue);
  }

  /** Inside the pointer's reach, at distance `s > 0` from it, the velocity
      change points straight away from the pointer and has length
      `0.3 * (8000 - d2) / 8000`. */
  lemma RepelPushesAway(p: Particle, dx: real, dy: real, s: real)
    requires 0.0 < Norm2(dx, dy) < Reach2 && IsRoot(s, Norm2(dx, dy))
    ensures 0.0 < s
    ensures Push(p, Repel(p, dx, dy, s)).0 * dy == Push(p, Repel(p, dx, dy, s)).1 * dx
    ensures 0.0 < Push(p, Repel(p, dx, dy, s)).0 * dx + Push(p, Repel(p, dx, dy, s)).1 * dy
    ensures Speed2(Push(p, Repel(p, dx, dy, s))) == Square(Intensity * Strength * (Reach2 - Norm2(dx, dy)) / Reach2)
  {
    RootPositive(s, Norm2(dx, dy));
    var c := RepelImpulse(p, dx, dy, s);
    var i := Push(p, Repel(p, dx, dy, s));
    ScaledAlong(dx, dy, c, i.0, i.1);
    ScaledRoot(dx, dy, s, c, i.0, i.1);
  }

  /** A particle 90 or more away from the pointer along either axis is out
      of reach (90 * 90 > 8000) and is not pushed. The pointer parked at
      (-9999, -9999) when it leaves the canvas (main.js:84, 180) is such a
      pointer for every particle on the canvas. */
  lemma FarPointerIsInert(p: Particle, ptr: Pointer, s: real)
    requires 0.0 < s
    requires ptr.x + 90.0 <= p.x || p.x + 90.0 <= ptr.x || ptr.y + 90.0 <= p.y || p.y + 90.0 <= ptr.y
    ensures Repel(p, p.x - ptr.x, p.y - ptr.y, s) == p
  {
  }

  // ---------------------------------------------------------------------------
  // Speed governor (main.js:133-140)

  /** The velocity after the speed limit, where `m` is `Math.hypot(vx, vy)`.
      Both tests compare the magnitude measured before any rescaling, so a slow
      particle is brought up to `spd` itself, not to the floor `0.5 * spd`.
      The source divides by `m` whenever a rescale fires; the precondition
      rules out exactly the division by zero. */
  function Govern(vx: real, vy: real, m: real, spd: real): (v: (real, real))
    requires m != 0.0 || spd == 0.0
    ensures spd * 0.5 <= m <= spd * 2.0 ==> v == (vx, vy)
  {
    var maxSpd := spd * 2.0;
    var wx := if m > maxSpd then vx * (maxSpd / m) else vx;
    var wy := if m > maxSpd then vy * (maxSpd / m) else vy;
    if m < spd * 0.5 then (wx * (spd / m), wy * (spd / m)) else (wx, wy)
  }

  /** The governor only ever multiplies the velocity by one factor `k`: the
      slow-down `2 spd / m` for a fast particle, the speed-up `spd / m` for a
      slow one, and 1 otherwise. */
  lemma GovernScales(vx: real, vy: real, m: real, spd: real) returns (k: real)
    requires 0.0 <= spd && 0.0 < m
    ensures Govern(vx, vy, m, spd).0 == vx * k && Govern(vx, vy, m, spd).1 == vy * k
    ensures m > spd * 2.0 ==> k == spd * 2.0 / m
    ensures m < spd * 0.5 ==> k == spd / m
    ensures spd * 0.5 <= m <= spd * 2.0 ==> k == 1.0
    ensures 0.0 < spd ==> 0.0 < k
  {
    var w := Govern(vx, vy, m, spd);
    if m > spd * 2.0 {
      k := spd * 2.0 / m;
      assert !(m < spd * 0.5);
      assert w.0 == vx * k && w.1 == vy * k;
      if 0.0 < spd {
        DivPositive(spd * 2.0, m);
      }
    } else if m < spd * 0.5 {
      k := spd / m;
      assert w.0 == vx * k && w.1 == vy * k;
      DivPositive(spd, m);
    } else {
      k := 1.0;
    }
  }

  /** The governor never turns a particle: the new velocity is parallel to the
      old one and, for a positive speed setting, points the same way. */
  lemma GovernKeepsDirection(vx: real, vy: real, m: real, spd: real)
    requires 0.0 <= spd && 0.0 < m && IsRoot(m, Norm2(vx, vy))
    ensures Govern(vx, vy, m, spd).0 * vy == Govern(vx, vy, m, spd).1 * vx
    ensures 0.0 < spd ==> 0.0 < Govern(vx, vy, m, spd).0 * vx + Govern(vx, vy, m, spd).1 * vy
  {
    var k := GovernScales(vx, vy, m, spd);
    SquarePositive(m);
    if 0.0 < spd {
      var w := Govern(vx, vy, m, spd);
      ScaledAlong(vx, vy, k, w.0, w.1);
    }
  }

  /** With `m` the true length of (vx, vy): a fast particle is slowed to exactly
      `2 * spd`, a slow one is sped up to exactly `spd`, any other is left alone,
      and the resulting speed lies in [0.5 spd, 2 spd]. */
  lemma GovernorBands(vx: real, vy: real, m: real, spd: real)
    requires 0.0 <= spd && 0.0 < m && IsRoot(m, Norm2(vx, vy))
    ensures m > spd * 2.0 ==> Speed2(Govern(vx, vy, m, spd)) == Square(spd * 2.0)
    ensures m < spd * 0.5 ==> Speed2(Govern(vx, vy, m, spd)) == Square(spd)
    ensures spd * 0.5 <= m <= spd * 2.0 ==> Govern(vx, vy, m, spd) == (vx, vy)
    ensures Square(spd * 0.5) <= Speed2(Govern(vx, vy, m, spd)) <= Square(spd * 2.0)
  {
    var w := Govern(vx, vy, m, spd);
    var k := GovernScales(vx, vy, m, spd);
    SquareIncreasing(spd * 0.5, spd);
    SquareIncreasing(spd, spd * 2.0);
    if m > spd * 2.0 {
      Rescaled(vx, vy, m, spd * 2.0);
      assert Speed2(w) == Square(spd * 2.0);
    } else if m < spd * 0.5 {
      Rescaled(vx, vy, m, spd);
      assert Speed2(w) == Square(spd);
    } else {
      assert w.0 == vx && w.1 == vy;
      SquareIncreasing(spd * 0.5, m);
      SquareIncreasing(m, spd * 2.0);
      assert Speed2(w) == Square(m);
    }
  }

  // ---------------------------------------------------------------------------
  // Integration and wrap-around (main.js:142-145)

  /** `if (c < 0) c += extent; if (c > extent) c -= extent;` — a single step of
      wrap-around, so a coordinate equal to `extent` stays put. */
  function Wrap(c: real, extent: real): (w: real)
    ensures w == c || w == c + extent || w == c - extent
    ensures 0.0 <= c <= extent ==> w == c
    ensures 0.0 <= extent && -extent <= c <= 2.0 * extent ==> 0.0 <= w <= extent
  {
    var c1 := if c < 0.0 then c + extent else c;
    if c1 > extent then c1 - extent else c1
  }

  // ---------------------------------------------------------------------------
  // One particle, one frame (main.js:122-145)

  /** `Math.sqrt(v || 1)` through the host square root. */
  function RootOrOne(v: real, sqrt: real -> real): (s: real)
    requires IsSqrt(sqrt) && 0.0 <= v
    ensures 0.0 < s && IsRoot(s, OrOne(v))
  {
    SqrtPositive(sqrt, OrOne(v));
    sqrt(OrOne(v))
  }

  /** `Math.hypot(vx, vy)` through the host square root. */
  function Hypot(vx: real, vy: real, sqrt: real -> real): (m: real)
    requires IsSqrt(sqrt)
    ensures IsRoot(m, Norm2(vx, vy))
  {
    Norm2Nonnegative(vx, vy);
    sqrt(Norm2(vx, vy))
  }

  /** The particle after the push of the pointer at `ptr`. */
  function Pushed(p: Particle, ptr: Pointer, sqrt: real -> real): (a: Particle)
    requires IsSqrt(sqrt)
    ensures a.x == p.x && a.y == p.y && a.r == p.r && a.hue == p.hue
    ensures Reach2 <= Dist2(p, ptr) ==> a == p
  {
    var dx, dy := p.x - ptr.x, p.y - ptr.y;
    Norm2Nonnegative(dx, dy);
    Repel(p, dx, dy, RootOrOne(Norm2(dx, dy), sqrt))
  }

  /** Within reach of the pointer, and not exactly under it, the push points
      away from the pointer: it is parallel to the particle's offset
      `(p.x - ptr.x, p.y - ptr.y)` from the pointer and has a positive dot
      product with it. */
  lemma PushedAway(p: Particle, ptr: Pointer, sqrt: real -> real)
    requires IsSqrt(sqrt) && 0.0 < Dist2(p, ptr) < Reach2
    ensures var i := Push(p, Pushed(p, ptr, sqrt));
      i.0 * (p.y - ptr.y) == i.1 * (p.x - ptr.x) &&
      0.0 < i.0 * (p.x - ptr.x) + i.1 * (p.y - ptr.y)
  {
    var dx, dy := p.x - ptr.x, p.y - ptr.y;
    Norm2Nonnegative(dx, dy);
    RepelPushesAway(p, dx, dy, RootOrOne(Norm2(dx, dy), sqrt));
  }

  /** The governor will not divide by zero: either the speed setting is 0 or
      the particle is moving. */
  predicate Moving(a: Particle, spd: real) {
    spd == 0.0 || a.vx != 0.0 || a.vy != 0.0
  }

  /** The length of a moving particle's velocity is not zero. */
  lemma GovernDefined(vx: real, vy: real, m: real, spd: real)
    requires IsRoot(m, Norm2(vx, vy)) && (spd == 0.0 || vx != 0.0 || vy != 0.0)
    ensures m != 0.0 || spd == 0.0
  {
    if spd != 0.0 {
      Norm2Positive(vx, vy);
    }
  }

  /** The particle with its speed limited. */
  function Governed(a: Particle, spd: real, sqrt: real -> real): (g: Particle)
    requires IsSqrt(sqrt) && Moving(a, spd)
    ensures g.x == a.x && g.y == a.y && g.r == a.r && g.hue == a.hue
    ensures 0.0 <= spd && Square(spd * 0.5) <= Norm2(a.vx, a.vy) <= Square(spd * 2.0) ==> g == a
  {
    var m := Hypot(a.vx, a.vy, sqrt);
    GovernDefined(a.vx, a.vy, m, spd);
    RootInBand(m, spd);
    var v := Govern(a.vx, a.vy, m, spd);
    a.(vx := v.0, vy := v.1)
  }

  /** A non-negative `m` whose square lies between the squares of the band's
      ends lies in the band itself. */
  lemma RootInBand(m: real, spd: real)
    requires 0.0 <= m
    ensures 0.0 <= spd && Square(spd * 0.5) <= Square(m) <= Square(spd * 2.0) ==>
      spd * 0.5 <= m <= spd * 2.0
  {
    if 0.0 <= spd {
      if m < spd * 0.5 {
        SquareStrictlyIncreasing(m, spd * 0.5);
      } else if spd * 2.0 < m {
        SquareStrictlyIncreasing(spd * 2.0, m);
      }
    }
  }

  /** A resting particle at speed setting 0 stays at rest. */
  lemma GovernAtRest(vx: real, vy: real, m: real, spd: real)
    requires IsRoot(m, Norm2(vx, vy)) && vx == 0.0 && vy == 0.0 && spd == 0.0
    ensures m == 0.0
    ensures Govern(vx, vy, m, spd).0 == 0.0 && Govern(vx, vy, m, spd).1 == 0.0
    ensures Speed2(Govern(vx, vy, m, spd)) == 0.0
    ensures Square(spd * 0.5) <= Speed2(Govern(vx, vy, m, spd)) <= Square(spd * 2.0)
  {
    MulZero(vx, vx);
    MulZero(vy, vy);
    RootUnique(m, 0.0, Norm2(vx, vy));
    var w := Govern(vx, vy, m, spd);
    assert w.0 == 0.0 && w.1 == 0.0;
    MulZero(w.0, w.0);
    MulZero(w.1, w.1);
    MulZero(spd * 0.5, spd * 0.5);
    MulZero(spd * 2.0, spd * 2.0);
  }

  /** Whatever the velocity, the governed speed lies within [0.5 spd, 2 spd]. */
  lemma GovernSpeed(vx: real, vy: real, m: real, spd: real)
    requires IsRoot(m, Norm2(vx, vy)) && 0.0 <= spd && (spd == 0.0 || vx != 0.0 || vy != 0.0)
    ensures m != 0.0 || spd == 0.0
    ensures Square(spd * 0.5) <= Speed2(Govern(vx, vy, m, spd)) <= Square(spd * 2.0)
  {
    if vx == 0.0 && vy == 0.0 {
      GovernAtRest(vx, vy, m, spd);
    } else {
      Norm2Positive(vx, vy);
      RootPositive(m, Norm2(vx, vy));
      GovernorBands(vx, vy, m, spd);
    }
  }

  /** After the speed limit the speed lies within [0.5 spd, 2 spd]. */
  lemma GovernedSpeed(a: Particle, spd: real, sqrt: real -> real)
    requires IsSqrt(sqrt) && Moving(a, spd) && 0.0 <= spd
    ensures Square(spd * 0.5) <= Norm2(Governed(a, spd, sqrt).vx, Governed(a, spd, sqrt).vy) <= Square(spd * 2.0)
  {
    var m := Hypot(a.vx, a.vy, sqrt);
    GovernSpeed(a.vx, a.vy, m, spd);
    var g := Governed(a, spd, sqrt);
    assert g.vx == Govern(a.vx, a.vy, m, spd).0 && g.vy == Govern(a.vx, a.vy, m, spd).1;
  }

  /** Integrate the position and wrap it around the canvas: each coordinate
      moves by its velocity component, and then by at most one canvas extent;
      a particle that stays on the canvas moves by exactly its velocity. */
  function Move(a: Particle, W: real, H: real): (q: Particle)
    ensures q.vx == a.vx && q.vy == a.vy && q.r == a.r && q.hue == a.hue
    ensures q.x == a.x + a.vx || q.x == a.x + a.vx + W || q.x == a.x + a.vx - W
    ensures q.y == a.y + a.vy || q.y == a.y + a.vy + H || q.y == a.y + a.vy - H
    ensures 0.0 <= a.x + a.vx <= W ==> q.x == a.x + a.vx
    ensures 0.0 <= a.y + a.vy <= H ==> q.y == a.y + a.vy
  {
    a.(x := Wrap(a.x + a.vx, W), y := Wrap(a.y + a.vy, H))
  }

  /** A particle on the canvas whose velocity components are at most `c` in
      size stays on the canvas when `c` fits in the canvas. */
  lemma MoveStaysOnCanvas(a: Particle, c: real, W: real, H: real)
    requires OnCanvas(a, W, H) && 0.0 <= c <= W && c <= H
    requires -c <= a.vx <= c && -c <= a.vy <= c
    ensures OnCanvas(Move(a, W, H), W, H)
  {
  }

  /** The governor can run after the push. */
  predicate Steppable(p: Particle, ptr: Pointer, spd: real, sqrt: real -> real)
    requires IsSqrt(sqrt)
  {
    Moving(Pushed(p, ptr, sqrt), spd)
  }

  /** Push, limit the speed, move, wrap. */
  function StepParticle(p: Particle, ptr: Pointer, spd: real, W: real, H: real, sqrt: real -> real): (q: Particle)
    requires IsSqrt(sqrt) && Steppable(p, ptr, spd, sqrt)
    ensures q.r == p.r && q.hue == p.hue
  {
    Move(Governed(Pushed(p, ptr, sqrt), spd, sqrt), W, H)
  }

  /** After a step the speed lies within [0.5 spd, 2 spd], and a particle on
      the canvas stays on the canvas provided one frame's largest move `2 spd`
      fits in the canvas. */
  lemma StepStaysOnCanvas(p: Particle, ptr: Pointer, spd: real, W: real, H: real, sqrt: real -> real)
    requires IsSqrt(sqrt) && Steppable(p, ptr, spd, sqrt) && 0.0 <= spd
    ensures var q := StepParticle(p, ptr, spd, W, H, sqrt);
      Square(spd * 0.5) <= Norm2(q.vx, q.vy) <= Square(spd * 2.0)
    ensures spd * 2.0 <= W && spd * 2.0 <= H && OnCanvas(p, W, H) ==>
      OnCanvas(StepParticle(p, ptr, spd, W, H, sqrt), W, H)
  {
    var a := Pushed(p, ptr, sqrt);
    var g := Governed(a, spd, sqrt);
    GovernedSpeed(a, spd, sqrt);
    ComponentBound(g.vx, g.vy, spd * 2.0);
    if spd * 2.0 <= W && spd * 2.0 <= H && OnCanvas(p, W, H) {
      MoveStaysOnCanvas(g, spd * 2.0, W, H);
    }
  }

  // ---------------------------------------------------------------------------
  // One frame (main.js:117-145)

  /** Every particle of `ps` stepped once, in order; particles do not interact
      during the update. */
  function Advance(ps: seq<Particle>, ptr: Pointer, spd: real, W: real, H: real, sqrt: real -> real): (qs: seq<Particle>)
    requires IsSqrt(sqrt)
    requires forall i :: 0 <= i < |ps| ==> Steppable(ps[i], ptr, spd, sqrt)
    ensures |qs| == |ps|
    ensures forall i :: 0 <= i < |ps| ==> qs[i] == StepParticle(ps[i], ptr, spd, W, H, sqrt)
  {
    if ps == [] then []
    else [StepParticle(ps[0], ptr, spd, W, H, sqrt)] + Advance(ps[1..], ptr, spd, W, H, sqrt)
  }

  /** The whole update of one `draw` call. */
  function Frame(ps: seq<Particle>, count: nat, spawns: seq<Particle>, ptr: Pointer, spd: real, W: real, H: real,
                 sqrt: real -> real): (qs: seq<Particle>)
    requires count <= |ps| + |spawns|
    requires IsSqrt(sqrt)
    requires forall i :: 0 <= i < count ==> Steppable(Reconciled(ps, count, spawns)[i], ptr, spd, sqrt)
    ensures |qs| == count
  {
    Advance(Reconciled(ps, count, spawns), ptr, spd, W, H, sqrt)
  }

  /** The wrap invariant over a whole frame: if every existing and every
      spawned particle is on the canvas, and the top speed `2 spd` fits in the
      canvas, every particle is on the canvas after the frame. */
  lemma FrameKeepsParticlesOnCanvas(ps: seq<Particle>, count: nat, spawns: seq<Particle>, ptr: Pointer,
                                    spd: real, W: real, H: real, sqrt: real -> real)
    requires count <= |ps| + |spawns|
    requires IsSqrt(sqrt)
    requires forall i :: 0 <= i < count ==> Steppable(Reconciled(ps, count, spawns)[i], ptr, spd, sqrt)
    requires 0.0 <= spd && spd * 2.0 <= W && spd * 2.0 <= H
    requires forall i :: 0 <= i < |ps| ==> OnCanvas(ps[i], W, H)
    requires forall i :: 0 <= i < |spawns| ==> OnCanvas(spawns[i], W, H)
    ensures var qs := Frame(ps, count, spawns, ptr, spd, W, H, sqrt);
      forall i :: 0 <= i < |qs| ==> OnCanvas(qs[i], W, H)
  {
    var rs := Reconciled(ps, count, spawns);
    var qs := Frame(ps, count, spawns, ptr, spd, W, H, sqrt);
    forall i | 0 <= i < |qs|
      ensures OnCanvas(qs[i], W, H)
    {
      assert OnCanvas(rs[i], W, H) by {
        if i < |ps| {
          assert rs[i] == ps[i];
        } else {
          assert rs[i] == spawns[i - |ps|];
        }
      }
      StepStaysOnCanvas(rs[i], ptr, spd, W, H, sqrt);
    }
  }
}

=== FILE: numeric.dfy ===
/** The page's small numeric helpers: `clamp` and `lerp` over reals
    (main.js:11-12), and the Euclidean `gcd` with its derived `lcm` over
    naturals (main.js:269-270), which the Lissajous renderer uses to close
    its curve. */
module Numeric {
  import opened Geometry

  function Min(a: real, b: real): real {
    if a < b then a else b
  }

  function Max(a: real, b: real): real {
    if a < b then b else a
  }

  /** `Math.min(Math.max(v, lo), hi)`: `v` forced into [lo, hi]. When the bounds
      are crossed (`hi < lo`) the upper bound wins. */
  function Clamp(v: real, lo: real, hi: real): (r: real)
    ensures lo <= hi ==> lo <= r <= hi
    ensures lo <= v <= hi ==> r == v
    ensures lo <= hi && v < lo ==> r == lo
    ensures lo <= hi && hi < v ==> r == hi
    ensures hi < lo ==> r == hi
  {
    Min(Max(v, lo), hi)
  }

  /** Clamping twice with the same bounds is clamping once. */
  lemma ClampIdempotent(v: real, lo: real, hi: real)
    ensures Clamp(Clamp(v, lo, hi), lo, hi) == Clamp(v, lo, hi)
  {
  }

  /** Clamping preserves the order of its inputs. */
  lemma ClampMonotone(v: real, w: real, lo: real, hi: real)
    requires v <= w
    ensures Clamp(v, lo, hi) <= Clamp(w, lo, hi)
  {
  }

  /** `a + (b - a) * t`: the point a fraction `t` of the way from `a` to `b`. */
  function Lerp(a: real, b: real, t: real): (r: real)
    ensures t == 0.0 ==> r == a
    ensures t == 1.0 ==> r == b
  {
    a + (b - a) * t
  }

  /** For `t` in [0, 1] the interpolant lies between the end points. */
  lemma LerpBetween(a: real, b: real, t: real)
    requires 0.0 <= t <= 1.0
    ensures Min(a, b) <= Lerp(a, b, t) <= Max(a, b)
  {
    var p := (b - a) * t;
    var q := (b - a) * (1.0 - t);
    assert p + q == b - a;
    if a <= b {
      MulNonnegative(b - a, t, p);
      MulNonnegative(b - a, 1.0 - t, q);
    } else {
      MulNonnegative(a - b, t, -p);
      MulNonnegative(a - b, 1.0 - t, -q);
    }
  }

  /** Interpolating from `b` back to `a` with `1 - t` gives the same point. */
  lemma LerpSymmetric(a: real, b: real, t: real)
    ensures Lerp(b, a, 1.0 - t) == Lerp(a, b, t)
  {
  }

  // ---------------------------------------------------------------------------
  // gcd / lcm

  /** `d` divides `n`: `n` is an integer multiple of `d`. */
  ghost predicate Divides(d: int, n: int) {
    exists k: int :: n == d * k
  }

  /** `b === 0 ? a : gcd(b, a % b)`; on naturals JavaScript's `%` is the
      Euclidean remainder. */
  function Gcd(a: nat, b: nat): (g: nat)
    decreases b
    ensures 0 < a || 0 < b ==> 0 < g
  {
    if b == 0 then a else Gcd(b, a % b)
  }

  /** `(a * b) / gcd(a, b)`; undefined (NaN in the source) when both are 0. */
  function Lcm(a: nat, b: nat): (l: nat)
    requires 0 < a || 0 < b
    ensures l * Gcd(a, b) == a * b
  {
    ProductOverGcd(a, b);
    (a * b) / Gcd(a, b)
  }

  lemma DividesSelf(n: int)
    ensures Divides(n, n) && Divides(n, 0)
  {
    assert n == n * 1;
    assert 0 == n * 0;
  }

  /** A divisor of `b` and of `r` divides `b * q + r`, and conversely a divisor
      of `b` and of `b * q + r` divides `r`. */
  lemma DividesLinear(d: int, b: int, q: int, r: int)
    requires Divides(d, b)
    ensures Divides(d, r) ==> Divides(d, b * q + r)
    ensures Divides(d, b * q + r) ==> Divides(d, r)
  {
    var kb :| b == d * kb;
    if Divides(d, r) {
      var kr :| r == d * kr;
      assert b * q + r == d * (kb * q + kr) by {
        assert b * q == d * (kb * q);
      }
    }
    if Divides(d, b * q + r) {
      var ks :| b * q + r == d * ks;
      assert r == d * (ks - kb * q) by {
        assert b * q == d * (kb * q);
      }
    }
  }

  /** The gcd divides both of its arguments. */
  lemma {:induction false} GcdDivides(a: nat, b: nat)
    ensures Divides(Gcd(a, b), a) && Divides(Gcd(a, b), b)
    decreases b
  {
    if b == 0 {
      DividesSelf(a);
    } else {
      var g := Gcd(b, a % b);
      GcdDivides(b, a % b);
      assert a == b * (a / b) + a % b;
      DividesLinear(g, b, a / b, a % b);
    }
  }

  /** Every common divisor of `a` and `b` divides their gcd. */
  lemma {:induction false} GcdGreatest(a: nat, b: nat, d: int)
    requires Divides(d, a) && Divides(d, b)
    ensures Divides(d, Gcd(a, b))
    decreases b
  {
    if b != 0 {
      assert a == b * (a / b) + a % b;
      DividesLinear(d, b, a / b, a % b);
      GcdGreatest(b, a % b, d);
    }
  }

  /** Bezout: the gcd is an integer combination of the arguments. */
  lemma {:induction false} GcdBezout(a: nat, b: nat) returns (s: int, t: int)
    ensures Gcd(a, b) == s * a + t * b
    decreases b
  {
    if b == 0 {
      s, t := 1, 0;
    } else {
      var q, r := a / b, a % b;
      assert a == b * q + r;
      var s1, t1 := GcdBezout(b, r);
      // Gcd(b, r) == s1 * b + t1 * (a - b * q)
      s, t := t1, s1 - t1 * q;
      assert t1 * r == t1 * a - (t1 * q) * b;
    }
  }

  lemma DividesWitness(d: int, n: int, k: int)
    requires n == d * k
    ensures Divides(d, n)
  {
  }

  /** `lcm(a, b)` equals `a * (b / g)` and `(a / g) * b` for `g = gcd(a, b)`. */
  lemma LcmFactors(a: nat, b: nat) returns (ka: int, kb: int)
    requires 0 < a || 0 < b
    ensures a == Gcd(a, b) * ka && b == Gcd(a, b) * kb
    ensures Lcm(a, b) == ka * b && Lcm(a, b) == a * kb
  {
    var g := Gcd(a, b);
    GcdDivides(a, b);
    ka :| a == g * ka;
    kb :| b == g * kb;
    assert a * b == g * (ka * b);
    DivExact(g, ka * b);
    assert ka * b == ka * (g * kb) == (g * ka) * kb;
  }

  /** The source's division `(a * b) / gcd(a, b)` is exact. */
  lemma ProductOverGcd(a: nat, b: nat)
    requires 0 < a || 0 < b
    ensures (a * b) / Gcd(a, b) * Gcd(a, b) == a * b
  {
    var g := Gcd(a, b);
    GcdDivides(a, b);
    var ka :| a == g * ka;
    assert a * b == g * (ka * b);
    DivExact(g, ka * b);
    assert (a * b) / g == ka * b;
    assert ka * b * g == (g * ka) * b;
  }

  /** `lcm(a, b)` is a whole number that both `a` and `b` divide. */
  lemma LcmCommonMultiple(a: nat, b: nat)
    requires 0 < a || 0 < b
    ensures Divides(a, Lcm(a, b)) && Divides(b, Lcm(a, b))
  {
    var ka, kb := LcmFactors(a, b);
    DividesWitness(a, Lcm(a, b), kb);
    DividesWitness(b, Lcm(a, b), ka);
  }

  /** `lcm(a, b)` divides every common multiple of `a` and `b`. */
  lemma LcmLeast(a: nat, b: nat, c: int)
    requires 0 < a || 0 < b
    requires Divides(a, c) && Divides(b, c)
    ensures Divides(Lcm(a, b), c)
  {
    var g, l := Gcd(a, b), Lcm(a, b);
    var ka, kb := LcmFactors(a, b);
    var s, t := GcdBezout(a, b);
    var ca :| c == a * ca;
    var cb :| c == b * cb;
    var w := s * cb + t * ca;
    CommonMultipleTimesGcd(a, b, c, g, l, s, t, ca, cb);
    MulCancel(c, l * w, g);
    DividesWitness(l, c, w);
  }

  /** The algebra of `LcmLeast`: with `g = s * a + t * b` and `a * b = l * g`,
      a common multiple `c` satisfies `c * g = l * g * (s * cb + t * ca)`. */
  lemma CommonMultipleTimesGcd(a: int, b: int, c: int, g: int, l: int, s: int, t: int, ca: int, cb: int)
    requires g == s * a + t * b && a * b == l * g
    requires c == a * ca && c == b * cb
    ensures c * g == l * (s * cb + t * ca) * g
  {
    assert c * g == c * (s * a) + c * (t * b);
    assert c * (s * a) == (a * b) * (s * cb) by {
      assert c * (s * a) == (b * cb) * (s * a);
    }
    assert c * (t * b) == (a * b) * (t * ca) by {
      assert c * (t * b) == (a * ca) * (t * b);
    }
  }

  lemma DivExact(g: nat, k: int)
    requires 0 < g
    ensures (g * k) / g == k
  {
    var q, r := (g * k) / g, (g * k) % g;
    assert g * k == g * q + r;
    assert g * (k - q) == r;
    if k - q >= 1 {
      assert g * (k - q) == g + g * (k - q - 1);
      MulNonnegativeInt(g, k - q - 1);
    }
  }

  lemma MulNonnegativeInt(a: int, b: int)
    requires 0 <= a && 0 <= b
    ensures 0 <= a * b
  {
  }

  lemma MulCancel(x: int, y: int, g: int)
    requires 0 < g && x * g == y * g
    ensures x == y
  {
    assert (x - y) * g == 0;
  }
}

=== FILE: sandbox.dfy ===
/** The physics sandbox (`initPhysics`, main.js:713-858): one frame of
    `simulate` walks the bodies in order; each body in its turn falls,
    moves, bounces off the walls, floor and ceiling, and then resolves its
    overlap with every other body. Drawing is left out.

    A frame reads the gravity slider (already halved, `grav`), the bounce
    slider (`bounce`) and the canvas extent `W` × `H`. `Math.hypot` is the
    host square root `sqrt`; clicks that add bodies (`addBody`, random) are
    outside the frame.
 */
module Sandbox {
  import opened Geometry

  datatype Shape = Circle | Rect | Triangle

  /** One body: position, velocity, radius `size`, the drawing attributes
      `shape` and `color` (an index into the six-colour palette), and the
      rotation `angle` with its rate `av`. */
  datatype Body = Body(x: real, y: real, vx: real, vy: real, size: real,
                       shape: Shape, color: nat, angle: real, av: real)

  function Abs(v: real): (a: real)
    ensures 0.0 <= a && (a == v || a == -v)
  {
    if v < 0.0 then -v else v
  }

  /** The attributes no step of the frame changes. */
  predicate SameKind(b: Body, c: Body) {
    c.size == b.size && c.shape == b.shape && c.color == b.color
  }

  // ---------------------------------------------------------------------------
  // Gravity and integration (main.js:801-804)

  /** `vy += grav; x += vx; y += vy; angle += av`: the position moves by the
      velocity after gravity, the angle by the spin rate. */
  function Integrate(b: Body, grav: real): (c: Body)
    ensures SameKind(b, c) && c.vx == b.vx && c.av == b.av
    ensures c.vy - b.vy == grav
    ensures c.x - b.x == c.vx && c.y - b.y == c.vy
    ensures c.angle - b.angle == b.av
  {
    var vy := b.vy + grav;
    b.(vy := vy, x := b.x + b.vx, y := b.y + vy, angle := b.angle + b.av)
  }

  // ---------------------------------------------------------------------------
  // Walls, floor and ceiling (main.js:806-812)

  /** Left wall: a body poking out on the left is put against the wall and
      sent rightwards at `bounce` times its speed. */
  function LeftWall(b: Body, bounce: real): Body {
    if b.x - b.size < 0.0 then b.(x := b.size, vx := Abs(b.vx) * bounce) else b
  }

  /** Right wall: the mirror image of `LeftWall`. */
  function RightWall(b: Body, W: real, bounce: real): Body {
    if b.x + b.size > W then b.(x := W - b.size, vx := -(Abs(b.vx) * bounce)) else b
  }

  /** Floor: besides bouncing upwards, it keeps 98% of the horizontal speed and
      97% of the spin. */
  function Floor(b: Body, H: real, bounce: real): Body {
    if b.y + b.size > H
    then b.(y := H - b.size, vy := -(Abs(b.vy) * bounce), vx := b.vx * 0.98, av := b.av * 0.97)
    else b
  }

  /** Ceiling: a body poking out at the top is sent downwards. */
  function Ceiling(b: Body, bounce: real): Body {
    if b.y - b.size < 0.0 then b.(y := b.size, vy := Abs(b.vy) * bounce) else b
  }

  /** The four boundary tests, in the source's order: left wall, right wall,
      floor, ceiling. Each one that fires puts the body back against the
      boundary and sends it inward at `bounce` times its speed. */
  function Reflect(b: Body, W: real, H: real, bounce: real): (c: Body)
    ensures SameKind(b, c) && c.angle == b.angle
    ensures c.av == b.av || c.av == b.av * 0.97
    ensures 2.0 * b.size <= W ==> b.size <= c.x <= W - b.size
    ensures 2.0 * b.size <= H ==> b.size <= c.y <= H - b.size
  {
    Ceiling(Floor(RightWall(LeftWall(b, bounce), W, bounce), H, bounce), bounce)
  }

  /** The body lies between the walls and between floor and ceiling. */
  predicate Inside(b: Body, W: real, H: real) {
    b.size <= b.x <= W - b.size && b.size <= b.y <= H - b.size
  }

  /** On a canvas wide and tall enough for the body, reflection leaves the
      body alone exactly when it is inside, and a coordinate stays put
      exactly when the body is within the bounds on that axis. */
  lemma ReflectInside(b: Body, W: real, H: real, bounce: real)
    requires 2.0 * b.size <= W && 2.0 * b.size <= H
    ensures Inside(b, W, H) ==> Reflect(b, W, H, bounce) == b
    ensures Reflect(b, W, H, bounce).x == b.x <==> b.size <= b.x <= W - b.size
    ensures Reflect(b, W, H, bounce).y == b.y <==> b.size <= b.y <= H - b.size
  {
    var c := Reflect(b, W, H, bounce);
    if Inside(b, W, H) {
      assert c == Body(b.x, b.y, b.vx, b.vy, b.size, b.shape, b.color, b.angle, b.av);
    }
  }

  /** What each boundary hit does on a canvas large enough for the body: the
      body is put against the boundary it crossed and sent back inward at
      `bounce` times its speed across it; a floor hit also keeps 98% of the
      horizontal speed, whichever wall set it. */
  lemma ReflectHits(b: Body, W: real, H: real, bounce: real)
    requires 2.0 * b.size <= W && 2.0 * b.size <= H
    ensures var c := Reflect(b, W, H, bounce);
      var k := if b.y + b.size > H then 0.98 else 1.0;
      (b.x - b.size < 0.0 ==> c.x == b.size && c.vx == Abs(b.vx) * bounce * k) &&
      (b.x + b.size > W ==> c.x == W - b.size && c.vx == -(Abs(b.vx) * bounce) * k) &&
      (b.y + b.size > H ==> c.y == H - b.size && c.vy == -(Abs(b.vy) * bounce)) &&
      (b.y - b.size < 0.0 ==> c.y == b.size && c.vy == Abs(b.vy) * bounce)
  {
    WallsHit(b, W, bounce);
    FloorCeilingHit(RightWall(LeftWall(b, bounce), W, bounce), H, bounce);
  }

  /** The two wall tests of `ReflectHits`; they leave the vertical motion alone. */
  lemma WallsHit(b: Body, W: real, bounce: real)
    requires 2.0 * b.size <= W
    ensures var c := RightWall(LeftWall(b, bounce), W, bounce);
      c.y == b.y && c.vy == b.vy && c.size == b.size &&
      (b.x - b.size < 0.0 ==> c.x == b.size && c.vx == Abs(b.vx) * bounce) &&
      (b.x + b.size > W ==> c.x == W - b.size && c.vx == -(Abs(b.vx) * bounce))
  {
  }

  /** The floor and ceiling tests of `ReflectHits`; only a floor hit touches
      the horizontal speed. */
  lemma FloorCeilingHit(b: Body, H: real, bounce: real)
    requires 2.0 * b.size <= H
    ensures var c := Ceiling(Floor(b, H, bounce), bounce);
      var k := if b.y + b.size > H then 0.98 else 1.0;
      c.x == b.x && c.vx == b.vx * k &&
      (b.y + b.size > H ==> c.y == H - b.size && c.vy == -(Abs(b.vy) * bounce)) &&
      (b.y - b.size < 0.0 ==> c.y == b.size && c.vy == Abs(b.vy) * bounce)
  {
  }

  /** With `bounce >= 0` on a large enough canvas, a body that hit a boundary
      moves away from it afterwards (or stops): right after the left wall
      `vx >= 0`, after the right wall `vx <= 0`, after the floor `vy <= 0`
      (up the screen) and after the ceiling `vy >= 0`. */
  lemma ReflectPointsInward(b: Body, W: real, H: real, bounce: real)
    requires 0.0 <= bounce && 2.0 * b.size <= W && 2.0 * b.size <= H
    ensures b.x - b.size < 0.0 ==> 0.0 <= Reflect(b, W, H, bounce).vx
    ensures b.x + b.size > W ==> Reflect(b, W, H, bounce).vx <= 0.0
    ensures b.y + b.size > H ==> Reflect(b, W, H, bounce).vy <= 0.0
    ensures b.y - b.size < 0.0 ==> 0.0 <= Reflect(b, W, H, bounce).vy
  {
    ReflectHits(b, W, H, bounce);
    HitsPointInward(b, Reflect(b, W, H, bounce), W, H, bounce);
  }

  /** The velocities `ReflectHits` gives point away from the boundary hit. */
  lemma HitsPointInward(b: Body, c: Body, W: real, H: real, bounce: real)
    requires 0.0 <= bounce
    requires var k := if b.y + b.size > H then 0.98 else 1.0;
      (b.x - b.size < 0.0 ==> c.vx == Abs(b.vx) * bounce * k) &&
      (b.x + b.size > W ==> c.vx == -(Abs(b.vx) * bounce) * k) &&
      (b.y + b.size > H ==> c.vy == -(Abs(b.vy) * bounce)) &&
      (b.y - b.size < 0.0 ==> c.vy == Abs(b.vy) * bounce)
    ensures b.x - b.size < 0.0 ==> 0.0 <= c.vx
    ensures b.x + b.size > W ==> c.vx <= 0.0
    ensures b.y + b.size > H ==> c.vy <= 0.0
    ensures b.y - b.size < 0.0 ==> 0.0 <= c.vy
  {
    var k := if b.y + b.size > H then 0.98 else 1.0;
    MulNonnegative(Abs(b.vx), bounce, Abs(b.vx) * bounce);
    MulNonnegative(Abs(b.vy), bounce, Abs(b.vy) * bounce);
    MulNonnegative(Abs(b.vx) * bounce, k, Abs(b.vx) * bounce * k);
  }

  /** Only the floor slows the spin and the sideways motion: away from the
      floor `av` is untouched and `vx` is changed by the walls alone; on the
      floor `av` keeps 97% of its value. */
  lemma ReflectFloorDamping(b: Body, W: real, H: real, bounce: real)
    ensures b.y + b.size <= H ==> Reflect(b, W, H, bounce).av == b.av
    ensures b.y + b.size > H ==> Reflect(b, W, H, bounce).av == b.av * 0.97
    ensures b.y + b.size <= H && b.size <= b.x <= W - b.size ==> Reflect(b, W, H, bounce).vx == b.vx
    ensures b.y + b.size > H && b.size <= b.x <= W - b.size ==>
      Reflect(b, W, H, bounce).vx == b.vx * 0.98
  {
  }

  /** With a restitution in [0, 1], reflection never speeds a body up along
      either axis. */
  lemma ReflectNoSpeedup(b: Body, W: real, H: real, bounce: real)
    requires 0.0 <= bounce <= 1.0
    ensures Abs(Reflect(b, W, H, bounce).vx) <= Abs(b.vx)
    ensures Abs(Reflect(b, W, H, bounce).vy) <= Abs(b.vy)
  {
    var b1 := LeftWall(b, bounce);
    var b2 := RightWall(b1, W, bounce);
    var b3 := Floor(b2, H, bounce);
    LeftWallNoSpeedup(b, bounce);
    RightWallNoSpeedup(b1, W, bounce);
    FloorNoSpeedup(b2, H, bounce);
    CeilingNoSpeedup(b3, bounce);
  }

  lemma LeftWallNoSpeedup(b: Body, bounce: real)
    requires 0.0 <= bounce <= 1.0
    ensures Abs(LeftWall(b, bounce).vx) <= Abs(b.vx) && LeftWall(b, bounce).vy == b.vy
  {
    ShrinkAbs(Abs(b.vx), bounce);
  }

  lemma RightWallNoSpeedup(b: Body, W: real, bounce: real)
    requires 0.0 <= bounce <= 1.0
    ensures Abs(RightWall(b, W, bounce).vx) <= Abs(b.vx) && RightWall(b, W, bounce).vy == b.vy
  {
    ShrinkAbs(Abs(b.vx), bounce);
  }

  lemma FloorNoSpeedup(b: Body, H: real, bounce: real)
    requires 0.0 <= bounce <= 1.0
    ensures Abs(Floor(b, H, bounce).vx) <= Abs(b.vx) && Abs(Floor(b, H, bounce).vy) <= Abs(b.vy)
  {
    ShrinkAbs(Abs(b.vy), bounce);
    DampAbs(b.vx);
  }

  lemma CeilingNoSpeedup(b: Body, bounce: real)
    requires 0.0 <= bounce <= 1.0
    ensures Ceiling(b, bounce).vx == b.vx && Abs(Ceiling(b, bounce).vy) <= Abs(b.vy)
  {
    ShrinkAbs(Abs(b.vy), bounce);
  }

  /** A speed scaled by a factor in [0, 1] is no faster, in either direction. */
  lemma ShrinkAbs(a: real, k: real)
    requires 0.0 <= a && 0.0 <= k <= 1.0
    ensures Abs(a * k) <= a && Abs(-(a * k)) <= a
  {
    var p := a * k;
    Shrink(a, k);
    assert Abs(p) == p;
    assert Abs(-p) == p;
  }

  /** Keeping 98% of a velocity never makes it faster. */
  lemma DampAbs(v: real)
    ensures Abs(v * 0.98) <= Abs(v)
  {
    if 0.0 <= v {
      Shrink(v, 0.98);
      assert Abs(v * 0.98) == v * 0.98;
    } else {
      Shrink(-v, 0.98);
      assert Abs(v * 0.98) == (-v) * 0.98;
    }
  }

  /** Multiplying a non-negative number by a factor in [0, 1] gives a
      non-negative number no larger. */
  lemma Shrink(a: real, k: real)
    requires 0.0 <= a && 0.0 <= k <= 1.0
    ensures 0.0 <= a * k <= a
  {
    MulNonnegative(a, k, a * k);
    MulNonnegative(a, 1.0 - k, a - a * k);
  }

  /** A body of radius 5 at x = -1 moving left at 3 with bounce 0.8 is put
      back at x = 5 moving right at 2.4. */
  lemma ReflectLeftWallExample()
    ensures var b := Body(-1.0, 50.0, -3.0, 0.0, 5.0, Circle, 0, 0.0, 0.0);
      var c := Reflect(b, 100.0, 100.0, 0.8);
      c.x == 5.0 && c.vx == 2.4 && c.y == 50.0 && c.vy == 0.0
  {
  }

  // ---------------------------------------------------------------------------
  // Body-body collision (main.js:815-831)

  /** The two bodies of one collision test, `b` the body whose turn it is and
      `o` the other. */
  datatype Pair = Pair(b: Body, o: Body)

  /** Twice the kinetic energy of a body of unit mass. */
  function Energy(b: Body): real {
    Norm2(b.vx, b.vy)
  }

  /** The speed at which `b` approaches `o` along the normal (nx, ny) pointing
      from `b` to `o` (`relV`). */
  function Approach(b: Body, o: Body, nx: real, ny: real): real {
    (b.vx - o.vx) * nx + (b.vy - o.vy) * ny
  }

  /** Positional correction: each body moves half the overlap along the
      normal, away from the other. */
  function Separate(b: Body, o: Body, nx: real, ny: real, overlap: real): (p: Pair)
    ensures p.b == b.(x := p.b.x, y := p.b.y) && p.o == o.(x := p.o.x, y := p.o.y)
    ensures p.b.x + p.o.x == b.x + o.x && p.b.y + p.o.y == b.y + o.y
  {
    Pair(b.(x := b.x - nx * overlap, y := b.y - ny * overlap),
         o.(x := o.x + nx * overlap, y := o.y + ny * overlap))
  }

  /** Velocity exchange: when `b` approaches `o`, each body receives the
      impulse `relV * bounce` along the normal, in opposite directions. */
  function Exchange(b: Body, o: Body, nx: real, ny: real, bounce: real): (p: Pair)
    ensures p.b == b.(vx := p.b.vx, vy := p.b.vy) && p.o == o.(vx := p.o.vx, vy := p.o.vy)
    ensures p.b.vx + p.o.vx == b.vx + o.vx && p.b.vy + p.o.vy == b.vy + o.vy
    ensures Approach(b, o, nx, ny) <= 0.0 ==> p == Pair(b, o)
  {
    var relV := Approach(b, o, nx, ny);
    if relV > 0.0 then
      var imp := relV * bounce;
      Pair(b.(vx := b.vx - imp * nx, vy := b.vy - imp * ny),
           o.(vx := o.vx + imp * nx, vy := o.vy + imp * ny))
    else
      Pair(b, o)
  }

  /** The collision test of `b` against `o` at centre distance `dist`
      (`Math.hypot(dx, dy)`): bodies that overlap, and are not almost on top
      of each other, are pushed apart and exchange momentum. */
  function Resolve(b: Body, o: Body, dist: real, bounce: real): (p: Pair)
    ensures SameKind(b, p.b) && SameKind(o, p.o)
    ensures p.b.angle == b.angle && p.b.av == b.av && p.o.angle == o.angle && p.o.av == o.av
    ensures p.b.x + p.o.x == b.x + o.x && p.b.y + p.o.y == b.y + o.y
    ensures p.b.vx + p.o.vx == b.vx + o.vx && p.b.vy + p.o.vy == b.vy + o.vy
    ensures !(dist < b.size + o.size && dist > 0.1) ==> p == Pair(b, o)
  {
    var minD := b.size + o.size;
    if dist < minD && dist > 0.1 then
      var nx, ny := (o.x - b.x) / dist, (o.y - b.y) / dist;
      var s := Separate(b, o, nx, ny, (minD - dist) / 2.0);
      Exchange(s.b, s.o, nx, ny, bounce)
    else
      Pair(b, o)
  }

  /** What a test on an overlapping pair does to the positions: each body
      moves half the overlap along the normal `(dx, dy) / dist`, away from
      the other. */
  lemma ResolvePositions(b: Body, o: Body, dist: real, bounce: real)
    requires 0.1 < dist < b.size + o.size
    ensures var nx, ny := (o.x - b.x) / dist, (o.y - b.y) / dist;
      var overlap := (b.size + o.size - dist) / 2.0;
      var p := Resolve(b, o, dist, bounce);
      p.b.x == b.x - nx * overlap && p.b.y == b.y - ny * overlap &&
      p.o.x == o.x + nx * overlap && p.o.y == o.y + ny * overlap
  {
  }

  /** `p` is the pair (b, o) after the equal and opposite impulse
      `relV * bounce` along (nx, ny). */
  predicate Kicked(b: Body, o: Body, p: Pair, nx: real, ny: real, bounce: real) {
    var imp := Approach(b, o, nx, ny) * bounce;
    p.b.vx == b.vx - imp * nx && p.b.vy == b.vy - imp * ny &&
    p.o.vx == o.vx + imp * nx && p.o.vy == o.vy + imp * ny
  }

  /** What a test on an overlapping pair does to the velocities: nothing
      when `b` is not closing in on `o`; otherwise each body receives the
      impulse `relV * bounce` along the normal, in opposite directions. */
  lemma ResolveVelocities(b: Body, o: Body, dist: real, bounce: real)
    requires 0.1 < dist < b.size + o.size
    ensures var nx, ny := (o.x - b.x) / dist, (o.y - b.y) / dist;
      var relV := Approach(b, o, nx, ny);
      var p := Resolve(b, o, dist, bounce);
      (relV <= 0.0 ==> p.b.vx == b.vx && p.b.vy == b.vy && p.o.vx == o.vx && p.o.vy == o.vy) &&
      (0.0 < relV ==> Kicked(b, o, p, nx, ny, bounce))
  {
    var nx, ny := (o.x - b.x) / dist, (o.y - b.y) / dist;
    var s := Separate(b, o, nx, ny, (b.size + o.size - dist) / 2.0);
    assert Approach(s.b, s.o, nx, ny) == Approach(b, o, nx, ny);
  }

  /** The offset after the correction: `d + 2 * (d / dist) * overlap` is `d`
      stretched by `minD / dist`. */
  lemma Stretch(d: real, dist: real, minD: real)
    requires 0.0 < dist
    ensures d + 2.0 * ((d / dist) * ((minD - dist) / 2.0)) == d * (minD / dist)
  {
    var n := d / dist;
    assert n * dist == d;
    assert 2.0 * (n * ((minD - dist) / 2.0)) == n * minD - n * dist;
    assert n * minD == d * (minD / dist);
  }

  /** The correction stretches the offset from `b` to `o` by `minD / dist`. */
  lemma ResolveOffset(b: Body, o: Body, dist: real, bounce: real)
    requires 0.1 < dist < b.size + o.size
    ensures var p := Resolve(b, o, dist, bounce);
      p.o.x - p.b.x == (o.x - b.x) * ((b.size + o.size) / dist) &&
      p.o.y - p.b.y == (o.y - b.y) * ((b.size + o.size) / dist)
  {
    ResolvePositions(b, o, dist, bounce);
    Stretch(o.x - b.x, dist, b.size + o.size);
    Stretch(o.y - b.y, dist, b.size + o.size);
  }

  /** An overlapping pair ends the test exactly touching: the centres move
      apart along the line joining them until their distance is the sum of
      the radii. */
  lemma ResolveTouches(b: Body, o: Body, dist: real, bounce: real)
    requires IsRoot(dist, Norm2(o.x - b.x, o.y - b.y))
    requires 0.1 < dist < b.size + o.size
    ensures var p := Resolve(b, o, dist, bounce);
      Norm2(p.o.x - p.b.x, p.o.y - p.b.y) == Square(b.size + o.size)
  {
    ResolveOffset(b, o, dist, bounce);
    Rescaled(o.x - b.x, o.y - b.y, dist, b.size + o.size);
  }

  /** Testing the same pair again, with the distance measured afresh, changes
      nothing: an immediate re-test in the same roles finds the bodies
      touching, not overlapping. */
  lemma ResolveIdempotent(b: Body, o: Body, dist: real, dist2: real, bounce: real)
    requires IsRoot(dist, Norm2(o.x - b.x, o.y - b.y))
    requires var p := Resolve(b, o, dist, bounce);
      IsRoot(dist2, Norm2(p.o.x - p.b.x, p.o.y - p.b.y))
    ensures var p := Resolve(b, o, dist, bounce);
      Resolve(p.b, p.o, dist2, bounce) == p
  {
    var minD := b.size + o.size;
    if dist < minD && dist > 0.1 {
      ResolveTouches(b, o, dist, bounce);
      RootUnique(dist2, minD, Square(minD));
    } else {
      RootUnique(dist2, dist, Norm2(o.x - b.x, o.y - b.y));
    }
  }

  /** An immediate re-test of a resolved pair with the roles swapped changes
      nothing: the bodies already touch. (In a frame the second test of a
      pair comes only after the other body's own turn, which may have moved
      it; see `PairTestedTwice`.) */
  lemma ResolveRevisit(b: Body, o: Body, dist: real, dist2: real, bounce: real)
    requires IsRoot(dist, Norm2(o.x - b.x, o.y - b.y))
    requires var p := Resolve(b, o, dist, bounce);
      IsRoot(dist2, Norm2(p.b.x - p.o.x, p.b.y - p.o.y))
    ensures var p := Resolve(b, o, dist, bounce);
      Resolve(p.o, p.b, dist2, bounce) == Pair(p.o, p.b)
  {
    var minD := b.size + o.size;
    var p := Resolve(b, o, dist, bounce);
    assert Norm2(p.b.x - p.o.x, p.b.y - p.o.y) == Norm2(p.o.x - p.b.x, p.o.y - p.b.y);
    if dist < minD && dist > 0.1 {
      ResolveTouches(b, o, dist, bounce);
      RootUnique(dist2, minD, Square(minD));
    } else {
      RootUnique(dist2, dist, Norm2(o.x - b.x, o.y - b.y));
    }
  }

  /** Dividing a vector by its length gives a unit vector. */
  lemma UnitNormal(dx: real, dy: real, dist: real)
    requires 0.0 < dist && Square(dist) == Norm2(dx, dy)
    ensures Norm2(dx / dist, dy / dist) == 1.0
  {
    Rescaled(dx, dy, dist, 1.0);
    assert dx * (1.0 / dist) == dx / dist;
    assert dy * (1.0 / dist) == dy / dist;
  }

  /** Moving `t` from one velocity component to the other's. */
  lemma EnergyShift(a: real, c: real, t: real)
    ensures Square(a - t) + Square(c + t) == Square(a) + Square(c) - 2.0 * (t * (a - c)) + 2.0 * Square(t)
  {
  }

  /** The approach speed after opposite impulses `imp` along (nx, ny). */
  lemma ImpulseApproach(bvx: real, bvy: real, ovx: real, ovy: real, nx: real, ny: real, imp: real)
    ensures ((bvx - imp * nx) - (ovx + imp * nx)) * nx + ((bvy - imp * ny) - (ovy + imp * ny)) * ny
         == (bvx - ovx) * nx + (bvy - ovy) * ny - 2.0 * (imp * Norm2(nx, ny))
  {
  }

  /** The energy after opposite velocity changes (t, u) and (-t, -u), given
      the two facts about them that an impulse along a unit normal provides. */
  lemma ImpulseEnergy(bvx: real, bvy: real, ovx: real, ovy: real, t: real, u: real,
                      imp: real, relV: real)
    requires Square(t) + Square(u) == Square(imp)
    requires t * (bvx - ovx) + u * (bvy - ovy) == imp * relV
    ensures Norm2(bvx - t, bvy - u) + Norm2(ovx + t, ovy + u)
         == Norm2(bvx, bvy) + Norm2(ovx, ovy) - 2.0 * (imp * relV) + 2.0 * Square(imp)
  {
    EnergyShift(bvx, ovx, t);
    EnergyShift(bvy, ovy, u);
  }

  /** An impulse `imp` along a unit normal has squared size `imp²`. */
  lemma ImpulseSize(nx: real, ny: real, imp: real)
    requires Norm2(nx, ny) == 1.0
    ensures Square(imp * nx) + Square(imp * ny) == Square(imp)
  {
    ScaledNorm2(nx, ny, imp);
    assert nx * imp == imp * nx && ny * imp == imp * ny;
  }

  /** The impulse's work against the relative velocity (a, c). */
  lemma ImpulseWork(nx: real, ny: real, imp: real, a: real, c: real, relV: real)
    requires relV == a * nx + c * ny
    ensures (imp * nx) * a + (imp * ny) * c == imp * relV
  {
  }

  /** `2 r (r b) - 2 (r b)² = 2 b (1 - b) r²`. */
  lemma ImpulseLoss(relV: real, bounce: real, imp: real)
    requires imp == relV * bounce
    ensures 2.0 * (imp * relV) - 2.0 * Square(imp) == 2.0 * bounce * (1.0 - bounce) * Square(relV)
  {
  }

  /** The equal and opposite impulse `relV * bounce` along a unit normal, in
      plain components (the primed velocities are those after it): the
      approach speed becomes `(1 - 2 * bounce) * relV`. */
  lemma PairApproach(bvx: real, bvy: real, ovx: real, ovy: real, nx: real, ny: real,
                     bounce: real, relV: real, imp: real,
                     bvx': real, bvy': real, ovx': real, ovy': real)
    requires Norm2(nx, ny) == 1.0
    requires relV == (bvx - ovx) * nx + (bvy - ovy) * ny && imp == relV * bounce
    requires bvx' == bvx - imp * nx && bvy' == bvy - imp * ny
    requires ovx' == ovx + imp * nx && ovy' == ovy + imp * ny
    ensures (bvx' - ovx') * nx + (bvy' - ovy') * ny == (1.0 - 2.0 * bounce) * relV
  {
    ImpulseApproach(bvx, bvy, ovx, ovy, nx, ny, imp);
  }

  /** The same impulse in plain components removes
      `2 * bounce * (1 - bounce) * relV²` from the doubled kinetic energy. */
  lemma PairEnergy(bvx: real, bvy: real, ovx: real, ovy: real, nx: real, ny: real,
                   bounce: real, relV: real, imp: real,
                   bvx': real, bvy': real, ovx': real, ovy': real)
    requires Norm2(nx, ny) == 1.0
    requires relV == (bvx - ovx) * nx + (bvy - ovy) * ny && imp == relV * bounce
    requires bvx' == bvx - imp * nx && bvy' == bvy - imp * ny
    requires ovx' == ovx + imp * nx && ovy' == ovy + imp * ny
    ensures Norm2(bvx', bvy') + Norm2(ovx', ovy')
         == Norm2(bvx, bvy) + Norm2(ovx, ovy) - 2.0 * bounce * (1.0 - bounce) * Square(relV)
  {
    ImpulseSize(nx, ny, imp);
    ImpulseWork(nx, ny, imp, bvx - ovx, bvy - ovy, relV);
    ImpulseEnergy(bvx, bvy, ovx, ovy, imp * nx, imp * ny, imp, relV);
    ImpulseLoss(relV, bounce, imp);
  }

  /** The kick along a unit normal turns the approach speed `relV` into
      `(1 - 2 * bounce) * relV`: the pair separates when `bounce > 1/2`, stops
      closing at `bounce = 1/2`, and keeps closing, slower, below that. */
  lemma KickApproach(b: Body, o: Body, p: Pair, nx: real, ny: real, bounce: real)
    requires Norm2(nx, ny) == 1.0 && Kicked(b, o, p, nx, ny, bounce)
    ensures Approach(p.b, p.o, nx, ny) == (1.0 - 2.0 * bounce) * Approach(b, o, nx, ny)
  {
    var relV := Approach(b, o, nx, ny);
    PairApproach(b.vx, b.vy, o.vx, o.vy, nx, ny, bounce, relV, relV * bounce,
                 p.b.vx, p.b.vy, p.o.vx, p.o.vy);
  }

  /** The kick along a unit normal removes `2 * bounce * (1 - bounce) * relV²`
      from the pair's doubled kinetic energy. */
  lemma KickEnergy(b: Body, o: Body, p: Pair, nx: real, ny: real, bounce: real)
    requires Norm2(nx, ny) == 1.0 && Kicked(b, o, p, nx, ny, bounce)
    ensures Energy(p.b) + Energy(p.o)
         == Energy(b) + Energy(o) - 2.0 * bounce * (1.0 - bounce) * Square(Approach(b, o, nx, ny))
  {
    var relV := Approach(b, o, nx, ny);
    var imp := relV * bounce;
    assert p.b.vx == b.vx - imp * nx && p.b.vy == b.vy - imp * ny;
    assert p.o.vx == o.vx + imp * nx && p.o.vy == o.vy + imp * ny;
    PairEnergy(b.vx, b.vy, o.vx, o.vy, nx, ny, bounce, relV, imp,
               p.b.vx, p.b.vy, p.o.vx, p.o.vy);
  }

  /** A pair that overlaps but is not closing in keeps its velocities. */
  lemma ResolveNotClosing(b: Body, o: Body, dist: real, bounce: real)
    requires 0.1 < dist < b.size + o.size
    requires Approach(b, o, (o.x - b.x) / dist, (o.y - b.y) / dist) <= 0.0
    ensures var p := Resolve(b, o, dist, bounce);
      p.b.vx == b.vx && p.b.vy == b.vy && p.o.vx == o.vx && p.o.vy == o.vy
  {
    ResolveVelocities(b, o, dist, bounce);
  }

  /** An overlapping pair that is closing in is kicked along the normal
      `(dx, dy) / dist`, which is a unit vector when `dist` is the exact
      distance. */
  lemma ResolveKicks(b: Body, o: Body, dist: real, bounce: real)
    requires IsRoot(dist, Norm2(o.x - b.x, o.y - b.y))
    requires 0.1 < dist < b.size + o.size
    requires 0.0 < Approach(b, o, (o.x - b.x) / dist, (o.y - b.y) / dist)
    ensures var nx, ny := (o.x - b.x) / dist, (o.y - b.y) / dist;
      Norm2(nx, ny) == 1.0 && Kicked(b, o, Resolve(b, o, dist, bounce), nx, ny, bounce)
  {
    ResolveVelocities(b, o, dist, bounce);
    UnitNormal(o.x - b.x, o.y - b.y, dist);
  }

  /** With a restitution in [0, 1] a collision test never adds kinetic
      energy. */
  lemma ResolveNoEnergyGain(b: Body, o: Body, dist: real, bounce: real)
    requires IsRoot(dist, Norm2(o.x - b.x, o.y - b.y))
    requires 0.0 <= bounce <= 1.0
    ensures var p := Resolve(b, o, dist, bounce);
      Energy(p.b) + Energy(p.o) <= Energy(b) + Energy(o)
  {
    if 0.1 < dist < b.size + o.size {
      var relV := Approach(b, o, (o.x - b.x) / dist, (o.y - b.y) / dist);
      if relV <= 0.0 {
        ResolveNotClosing(b, o, dist, bounce);
      } else {
        ResolveKicks(b, o, dist, bounce);
        KickEnergy(b, o, Resolve(b, o, dist, bounce), (o.x - b.x) / dist, (o.y - b.y) / dist, bounce);
        ResolveLossNonnegative(bounce, relV);
      }
    }
  }

  /** The energy a collision removes is never negative. */
  lemma ResolveLossNonnegative(bounce: real, relV: real)
    requires 0.0 <= bounce <= 1.0
    ensures 0.0 <= 2.0 * bounce * (1.0 - bounce) * Square(relV)
  {
    var k := 2.0 * bounce * (1.0 - bounce);
    MulNonnegative(2.0 * bounce, 1.0 - bounce, k);
    SquareNonnegative(relV);
    MulNonnegative(k, Square(relV), k * Square(relV));
  }

  /** The normal between two bodies on one horizontal line, `d` apart with
      `o` on side `s` of `b`, is (s, 0). */
  lemma LineNormal(b: Body, o: Body, d: real, s: real)
    requires b.y == o.y && o.x - b.x == s * d && 0.0 < d
    ensures (o.x - b.x) / d == s && (o.y - b.y) / d == 0.0
  {
    assert (s * d) / d == s;
  }

  /** The positional correction along the line (s, 0) moves only `x`. */
  lemma SeparateOnLine(b: Body, o: Body, s: real, half: real)
    ensures var p := Separate(b, o, s, 0.0, half);
      p.b == b.(x := b.x - s * half) && p.o == o.(x := o.x + s * half)
  {
    MulZero(0.0, half);
  }

  /** The velocity exchange along the line (s, 0) changes only `vx`. */
  lemma ExchangeOnLine(b: Body, o: Body, s: real, bounce: real)
    ensures var relV := (b.vx - o.vx) * s;
      var imp := if relV > 0.0 then relV * bounce else 0.0;
      var p := Exchange(b, o, s, 0.0, bounce);
      p.b == b.(vx := b.vx - imp * s) && p.o == o.(vx := o.vx + imp * s)
  {
    MulZero(0.0, b.vy - o.vy);
    assert (b.vy - o.vy) * 0.0 == 0.0;
    assert Approach(b, o, s, 0.0) == (b.vx - o.vx) * s;
  }

  /** Two overlapping bodies on one horizontal line, `d` apart, with `o` on
      side `s` of `b` (1 for right, -1 for left): each is pushed half the
      overlap away from the other, and when `b` closes in on `o` they trade
      the impulse `relV * bounce` along the line; nothing else changes. */
  lemma ResolveOnLine(b: Body, o: Body, d: real, s: real, bounce: real)
    requires b.y == o.y && (s == 1.0 || s == -1.0) && o.x - b.x == s * d
    requires 0.1 < d < b.size + o.size
    ensures var half := (b.size + o.size - d) / 2.0;
      var relV := (b.vx - o.vx) * s;
      var imp := if relV > 0.0 then relV * bounce else 0.0;
      var p := Resolve(b, o, d, bounce);
      p.b == b.(x := b.x - s * half, vx := b.vx - imp * s) &&
      p.o == o.(x := o.x + s * half, vx := o.vx + imp * s)
  {
    var half := (b.size + o.size - d) / 2.0;
    LineNormal(b, o, d, s);
    var sep := Separate(b, o, s, 0.0, half);
    SeparateOnLine(b, o, s, half);
    ExchangeOnLine(sep.b, sep.o, s, bounce);
  }

  /** Two bodies side by side on a horizontal line, moving together, that
      overlap by `minD - d`: each is pushed half the overlap away from the
      other and nothing else changes. */
  lemma ResolveSideBySide(b: Body, o: Body, bounce: real)
    requires b.y == o.y && 0.1 < o.x - b.x < b.size + o.size
    requires b.vx == o.vx && b.vy == o.vy
    ensures var p := Resolve(b, o, o.x - b.x, bounce);
      var half := (b.size + o.size - (o.x - b.x)) / 2.0;
      p.b == b.(x := b.x - half) && p.o == o.(x := o.x + half)
  {
    var d := o.x - b.x;
    var half := (b.size + o.size - d) / 2.0;
    assert d / d == 1.0;
    assert 0.0 / d == 0.0;
    var s := Separate(b, o, 1.0, 0.0, half);
    assert s.b == b.(x := b.x - half) by {
      MulZero(0.0, half);
    }
    assert s.o == o.(x := o.x + half) by {
      MulZero(0.0, half);
    }
    assert Approach(s.b, s.o, 1.0, 0.0) == 0.0 by {
      MulZero(0.0, 1.0);
      MulZero(0.0, 0.0);
    }
    var p := Exchange(s.b, s.o, 1.0, 0.0, bounce);
    assert p.b == s.b && p.o == s.o;
    assert Resolve(b, o, d, bounce) == p;
  }

  /** Example: two radius-10 bodies at rest, 15 apart, are each pushed
      2.5 outwards. */
  lemma ResolveExample()
    ensures var p := Resolve(Body(0.0, 50.0, 0.0, 0.0, 10.0, Circle, 0, 0.0, 0.0),
                             Body(15.0, 50.0, 0.0, 0.0, 10.0, Rect, 1, 0.0, 0.0), 15.0, 0.8);
      p.b.x == -2.5 && p.o.x == 17.5 && p.b.y == 50.0 && p.o.y == 50.0
  {
    ResolveSideBySide(Body(0.0, 50.0, 0.0, 0.0, 10.0, Circle, 0, 0.0, 0.0),
                      Body(15.0, 50.0, 0.0, 0.0, 10.0, Rect, 1, 0.0, 0.0), 0.8);
  }

  /** The wall tests come before the collision tests, so a body can end its
      turn outside the walls: a radius-10 body at x = 10 is inside, but an
      overlapping neighbour 5 to its right pushes it to x = 2.5. */
  lemma CollisionPushesPastWall()
    ensures var b := Body(10.0, 50.0, 0.0, 0.0, 10.0, Circle, 0, 0.0, 0.0);
      var o := Body(15.0, 50.0, 0.0, 0.0, 10.0, Circle, 0, 0.0, 0.0);
      Reflect(b, 100.0, 100.0, 0.8) == b &&
      Resolve(b, o, 5.0, 0.8).b.x == 2.5 && !Inside(Resolve(b, o, 5.0, 0.8).b, 100.0, 100.0)
  {
    var b := Body(10.0, 50.0, 0.0, 0.0, 10.0, Circle, 0, 0.0, 0.0);
    var o := Body(15.0, 50.0, 0.0, 0.0, 10.0, Circle, 0, 0.0, 0.0);
    ReflectInside(b, 100.0, 100.0, 0.8);
    ResolveSideBySide(b, o, 0.8);
  }

  // ---------------------------------------------------------------------------
  // One frame over all bodies (main.js:800-832)

  /** The collision test of body `b` against `o`, with the host square root
      standing in for `Math.hypot`: whatever distance the host reports, the
      test keeps both bodies' kind, angle and spin and the pair's position
      and momentum sums. */
  function Test(b: Body, o: Body, bounce: real, sqrt: real -> real): (p: Pair)
    ensures SameKind(b, p.b) && SameKind(o, p.o)
    ensures p.b.angle == b.angle && p.b.av == b.av && p.o.angle == o.angle && p.o.av == o.av
    ensures p.b.x + p.o.x == b.x + o.x && p.b.y + p.o.y == b.y + o.y
    ensures p.b.vx + p.o.vx == b.vx + o.vx && p.b.vy + p.o.vy == b.vy + o.vy
  {
    Resolve(b, o, sqrt(Norm2(o.x - b.x, o.y - b.y)), bounce)
  }

  /** The inner `bodies.forEach(o => ...)` from index `j` on: body `i` is
      tested against every other body in index order, and both bodies of each
      test are written back before the next one. */
  function CollideFrom(bs: seq<Body>, i: nat, j: nat, bounce: real, sqrt: real -> real): (cs: seq<Body>)
    requires i < |bs| && j <= |bs|
    decreases |bs| - j
    ensures |cs| == |bs|
    ensures forall k :: 0 <= k < |bs| ==>
      SameKind(bs[k], cs[k]) && cs[k].angle == bs[k].angle && cs[k].av == bs[k].av
  {
    if j == |bs| then bs
    else if j == i then CollideFrom(bs, i, j + 1, bounce, sqrt)
    else
      var p := Test(bs[i], bs[j], bounce, sqrt);
      CollideFrom(bs[i := p.b][j := p.o], i, j + 1, bounce, sqrt)
  }

  /** What happens to body `b` in its own turn before the collision tests. */
  function Turn(b: Body, grav: real, W: real, H: real, bounce: real): (c: Body)
    ensures SameKind(b, c) && c.angle == b.angle + b.av
    ensures c.av == b.av || c.av == b.av * 0.97
    ensures 2.0 * b.size <= W && 2.0 * b.size <= H && Inside(Integrate(b, grav), W, H) ==>
      c == Integrate(b, grav)
  {
    var a := Integrate(b, grav);
    if 2.0 * a.size <= W && 2.0 * a.size <= H then
      ReflectInside(a, W, H, bounce);
      Reflect(a, W, H, bounce)
    else
      Reflect(a, W, H, bounce)
  }

  /** The outer `bodies.forEach(b => ...)` from index `i` on: each body in
      turn falls, moves and bounces, and is then tested against all others.
      Bodies before `i` have had their turn, so their angle and spin are no
      longer touched; each later body's angle advances by its spin, which the
      floor may damp. */
  function SimulateFrom(bs: seq<Body>, i: nat, grav: real, W: real, H: real, bounce: real,
                        sqrt: real -> real): (cs: seq<Body>)
    requires i <= |bs|
    decreases |bs| - i
    ensures |cs| == |bs|
    ensures forall k :: 0 <= k < |bs| ==> SameKind(bs[k], cs[k])
    ensures forall k :: 0 <= k < i ==> cs[k].angle == bs[k].angle && cs[k].av == bs[k].av
    ensures forall k :: i <= k < |bs| ==>
      cs[k].angle == bs[k].angle + bs[k].av && (cs[k].av == bs[k].av || cs[k].av == bs[k].av * 0.97)
  {
    if i == |bs| then bs
    else
      var moved := bs[i := Turn(bs[i], grav, W, H, bounce)];
      SimulateFrom(CollideFrom(moved, i, 0, bounce, sqrt), i + 1, grav, W, H, bounce, sqrt)
  }

  /** `simulate()` without the drawing: one frame of the sandbox. */
  function Simulate(bs: seq<Body>, grav: real, W: real, H: real, bounce: real,
                    sqrt: real -> real): (cs: seq<Body>)
    ensures |cs| == |bs|
    ensures forall k :: 0 <= k < |bs| ==> SameKind(bs[k], cs[k])
    ensures forall k :: 0 <= k < |bs| ==>
      cs[k].angle == bs[k].angle + bs[k].av && (cs[k].av == bs[k].av || cs[k].av == bs[k].av * 0.97)
  {
    SimulateFrom(bs, 0, grav, W, H, bounce, sqrt)
  }

  /** A body alone on the canvas only falls, moves and bounces; when the
      canvas is wide and tall enough for it, it ends the frame inside. */
  lemma SimulateLoneBody(b: Body, grav: real, W: real, H: real, bounce: real, sqrt: real -> real)
    requires 2.0 * b.size <= W && 2.0 * b.size <= H
    ensures var cs := Simulate([b], grav, W, H, bounce, sqrt);
      cs == [Turn(b, grav, W, H, bounce)] && Inside(cs[0], W, H)
  {
    var c := Turn(b, grav, W, H, bounce);
    assert CollideFrom([c], 0, 1, bounce, sqrt) == [c];
    assert CollideFrom([c], 0, 0, bounce, sqrt) == [c];
    assert [b][0 := c] == [c];
    assert SimulateFrom([c], 1, grav, W, H, bounce, sqrt) == [c];
    assert Simulate([b], grav, W, H, bounce, sqrt) == [c];
    assert Integrate(b, grav).size == b.size;
  }

  /** A frame with two overlapping bodies on one horizontal line: body 0 at
      rest at x = 50, body 1 at x = 65 moving left at speed 3, both of
      radius 10, without gravity, on a 200 x 200 canvas with `bounce` 0.3.
      Body 0's test pushes the pair apart until they touch (x = 47.5 and
      67.5) and kicks body 0 leftwards. Body 1's own turn then moves it back
      to x = 65.4, so when body 1 tests body 0 the pair overlaps again and
      is pushed and kicked a second time. */
  lemma PairTestedTwice(b0: Body, b1: Body, sqrt: real -> real)
    requires b0 == Body(50.0, 50.0, 0.0, 0.0, 10.0, Circle, 0, 0.0, 0.0)
    requires b1 == Body(65.0, 50.0, -3.0, 0.0, 10.0, Circle, 0, 0.0, 0.0)
    requires sqrt(225.0) == 15.0 && sqrt(320.41) == 17.9
    ensures var first := Test(b0, b1, 0.3, sqrt);
      first == Pair(b0.(x := 47.5, vx := -0.9), b1.(x := 67.5, vx := -2.1)) &&
      Turn(first.o, 0.0, 200.0, 200.0, 0.3) == b1.(x := 65.4, vx := -2.1) &&
      Simulate([b0, b1], 0.0, 200.0, 200.0, 0.3, sqrt) ==
        [b0.(x := 46.45, vx := -1.26), b1.(x := 66.45, vx := -1.74)]
  {
    var p0 := b0.(x := 47.5, vx := -0.9);
    var p1 := b1.(x := 67.5, vx := -2.1);
    var c1 := b1.(x := 65.4, vx := -2.1);
    FirstOfTwo(b0, b1, sqrt);
    TurnAtRest(b0, 200.0, 200.0, 0.3);
    TurnOfSecond(p1);
    SecondOfTwo(c1, p0, sqrt);
    var z0, z1 := p0.(x := 46.45, vx := -1.26), c1.(x := 66.45, vx := -1.74);
    FrameOfTwo(b0, b1, 0.0, 200.0, 200.0, 0.3, sqrt);
    assert z0 == b0.(x := 46.45, vx := -1.26) && z1 == b1.(x := 66.45, vx := -1.74);
  }

  /** A frame of two bodies, stage by stage: body 0's turn, its test against
      body 1, body 1's turn, and body 1's test against body 0. */
  lemma FrameOfTwo(b0: Body, b1: Body, grav: real, W: real, H: real, bounce: real,
                   sqrt: real -> real)
    ensures var first := Test(Turn(b0, grav, W, H, bounce), b1, bounce, sqrt);
      var second := Test(Turn(first.o, grav, W, H, bounce), first.b, bounce, sqrt);
      Simulate([b0, b1], grav, W, H, bounce, sqrt) == [second.o, second.b]
  {
    var a0 := Turn(b0, grav, W, H, bounce);
    var first := Test(a0, b1, bounce, sqrt);
    var p0, p1 := first.b, first.o;
    var c1 := Turn(p1, grav, W, H, bounce);
    var second := Test(c1, p0, bounce, sqrt);
    var z0, z1 := second.o, second.b;
    assert CollideFrom([a0, b1], 0, 0, bounce, sqrt) == [p0, p1] by {
      assert [a0, b1][0 := p0][1 := p1] == [p0, p1];
      assert CollideFrom([p0, p1], 0, 2, bounce, sqrt) == [p0, p1];
    }
    assert CollideFrom([p0, c1], 1, 0, bounce, sqrt) == [z0, z1] by {
      assert [p0, c1][1 := z1][0 := z0] == [z0, z1];
      assert CollideFrom([z0, z1], 1, 2, bounce, sqrt) == [z0, z1];
    }
    assert [b0, b1][0 := a0] == [a0, b1];
    assert [p0, p1][1 := c1] == [p0, c1];
    assert SimulateFrom([z0, z1], 2, grav, W, H, bounce, sqrt) == [z0, z1];
    assert SimulateFrom([p0, p1], 1, grav, W, H, bounce, sqrt) == [z0, z1];
    assert SimulateFrom([b0, b1], 0, grav, W, H, bounce, sqrt) == [z0, z1];
  }

  /** Body 0's test in `PairTestedTwice`. */
  lemma FirstOfTwo(b0: Body, b1: Body, sqrt: real -> real)
    requires sqrt(225.0) == 15.0
    requires b0 == Body(50.0, 50.0, 0.0, 0.0, 10.0, Circle, 0, 0.0, 0.0)
    requires b1 == Body(65.0, 50.0, -3.0, 0.0, 10.0, Circle, 0, 0.0, 0.0)
    ensures Test(b0, b1, 0.3, sqrt) == Pair(b0.(x := 47.5, vx := -0.9), b1.(x := 67.5, vx := -2.1))
  {
    assert Norm2(b1.x - b0.x, b1.y - b0.y) == 225.0;
    ResolveOnLine(b0, b1, 15.0, 1.0, 0.3);
  }

  /** Without gravity, a body at rest and without spin that lies inside a
      canvas wide and tall enough for it stays put for its turn. */
  lemma TurnAtRest(b: Body, W: real, H: real, bounce: real)
    requires b.vx == 0.0 && b.vy == 0.0 && b.av == 0.0
    requires 2.0 * b.size <= W && 2.0 * b.size <= H && Inside(b, W, H)
    ensures Turn(b, 0.0, W, H, bounce) == b
  {
    assert Integrate(b, 0.0) == b;
    ReflectInside(b, W, H, bounce);
  }

  /** Body 1's turn in `PairTestedTwice`: it moves left by its speed and stays
      clear of the walls. */
  lemma TurnOfSecond(c: Body)
    requires c == Body(67.5, 50.0, -2.1, 0.0, 10.0, Circle, 0, 0.0, 0.0)
    ensures Turn(c, 0.0, 200.0, 200.0, 0.3) == c.(x := 65.4)
  {
    assert Integrate(c, 0.0) == c.(x := 65.4);
    ReflectInside(c.(x := 65.4), 200.0, 200.0, 0.3);
  }

  /** Body 1's test of body 0 in `PairTestedTwice`: the pair overlaps again. */
  lemma SecondOfTwo(c1: Body, p0: Body, sqrt: real -> real)
    requires sqrt(320.41) == 17.9
    requires c1 == Body(65.4, 50.0, -2.1, 0.0, 10.0, Circle, 0, 0.0, 0.0)
    requires p0 == Body(47.5, 50.0, -0.9, 0.0, 10.0, Circle, 0, 0.0, 0.0)
    ensures Test(c1, p0, 0.3, sqrt) == Pair(c1.(x := 66.45, vx := -1.74), p0.(x := 46.45, vx := -1.26))
  {
    assert Norm2(p0.x - c1.x, p0.y - c1.y) == 320.41;
    ResolveOnLine(c1, p0, 17.9, -1.0, 0.3);
  }

  // ---------------------------------------------------------------------------
  // What the collision tests conserve

  /** A per-body quantity summed over all bodies: the position sums (the
      centre of mass, since every body weighs the same in a collision), the
      momentum sums, and the doubled kinetic energy. */
  datatype Quantity = PosX | PosY | VelX | VelY | Kinetic

  function Amount(b: Body, q: Quantity): real {
    match q
    case PosX => b.x
    case PosY => b.y
    case VelX => b.vx
    case VelY => b.vy
    case Kinetic => Energy(b)
  }

  function Total(bs: seq<Body>, q: Quantity): real {
    if |bs| == 0 then 0.0 else Amount(bs[0], q) + Total(bs[1..], q)
  }

  /** Replacing one body changes a total by the difference of its amounts. */
  lemma {:induction false} TotalSet(bs: seq<Body>, i: nat, v: Body, q: Quantity)
    requires i < |bs|
    ensures Total(bs[i := v], q) == Total(bs, q) - Amount(bs[i], q) + Amount(v, q)
  {
    if i == 0 {
      assert bs[i := v][1..] == bs[1..];
    } else {
      assert bs[i := v][1..] == bs[1..][i - 1 := v];
      TotalSet(bs[1..], i - 1, v, q);
    }
  }

  /** One collision test conserves the position and momentum sums of the pair
      and, with a restitution in [0, 1] and an exact root, does not add
      kinetic energy. */
  lemma TestAmounts(b: Body, o: Body, bounce: real, sqrt: real -> real, q: Quantity)
    requires q == Kinetic ==> IsSqrt(sqrt) && 0.0 <= bounce <= 1.0
    ensures var p := Test(b, o, bounce, sqrt);
      q != Kinetic ==> Amount(p.b, q) + Amount(p.o, q) == Amount(b, q) + Amount(o, q)
    ensures var p := Test(b, o, bounce, sqrt);
      q == Kinetic ==> Amount(p.b, q) + Amount(p.o, q) <= Amount(b, q) + Amount(o, q)
  {
    if q == Kinetic {
      var v := Norm2(o.x - b.x, o.y - b.y);
      Norm2Nonnegative(o.x - b.x, o.y - b.y);
      assert IsRoot(sqrt(v), v);
      ResolveNoEnergyGain(b, o, sqrt(v), bounce);
    }
  }

  /** Body `i`'s collision tests move the bodies about but keep the sums of
      positions and of velocities, and never add kinetic energy when the
      restitution is in [0, 1]. */
  lemma {:induction false} CollideConserves(bs: seq<Body>, i: nat, j: nat, bounce: real,
                                            sqrt: real -> real, q: Quantity)
    requires i < |bs| && j <= |bs|
    requires q == Kinetic ==> IsSqrt(sqrt) && 0.0 <= bounce <= 1.0
    decreases |bs| - j
    ensures q != Kinetic ==> Total(CollideFrom(bs, i, j, bounce, sqrt), q) == Total(bs, q)
    ensures q == Kinetic ==> Total(CollideFrom(bs, i, j, bounce, sqrt), q) <= Total(bs, q)
  {
    if j == |bs| {
    } else if j == i {
      CollideConserves(bs, i, j + 1, bounce, sqrt, q);
    } else {
      var p := Test(bs[i], bs[j], bounce, sqrt);
      var bs1 := bs[i := p.b];
      TotalSet(bs, i, p.b, q);
      TotalSet(bs1, j, p.o, q);
      TestAmounts(bs[i], bs[j], bounce, sqrt, q);
      CollideConserves(bs1[j := p.o], i, j + 1, bounce, sqrt, q);
    }
  }
}
